=== FILE: README.md ===
# Sequential core of the SYSAM SP5 acquisition program, in Dafny

The program acquires signals from an Eurosmart SYSAM SP5 interface and draws
them in tabbed plot views. Under its Tk, matplotlib and driver layers sits a
small sequential core, and this project models that core over exact reals
(`real` stands in for float64):

- **Curve-set bookkeeping** (`CurveSet`, `Session`). A plot view holds:
  - the curves `(time, values, name, is_raw)`;
  - the parallel visibility-flag and colour lists;
  - the trash of removed curves;
  - the reticule's active index;
  - the initial, previous and current axis extents.

  The operations are syncing, removing, restoring, renaming, recolouring,
  choosing the active curve, editing one table cell, and appending a
  derivative or a model curve.
- **Names and units** (`Text`, `Names`, `CalcSheet`):
  - the unit in a name's trailing `(...)`;
  - the `"U.A."`/`"s"` units of the fitting commands;
  - the derivative's name;
  - the variable names of the calculation sheet, with `_2`, `_3`, ... de-duplication.
- **Axis partition and calibration** (`Names`, `Calibration`):
  - which curves go on the secondary y-axis;
  - the auto-fitted extents;
  - the one-level undo over initial/previous/current extents.
- **Measurement** (`Stats`, `Measure`):
  - time windowing and extremes;
  - the period from thresholded peaks or interpolated mean-crossings, with median-based outlier rejection;
  - the frequency.
- **Derivative** (`Differences`, `Derivative`): forward differences at the midpoint times.
- **Fitting around the solver** (`Fit`):
  - the exponential seed;
  - clamping of non-positive times for the power model;
  - parameter units;
  - model names;
  - the model curve evaluated on the fitting times.
- **Spectrum guards** (`Spectrum`): the fewer-than-two check and the reorder by time before the transform.

Every operation is a pure function on immutable datatypes. Each has a
partner property proved about it:
- **Inverses and round trips:**
  - units written into a name and read back;
  - a derivative integrated back to its curve;
  - remove then restore;
  - zip then unzip.
- **Preserved invariants:** aligned flag and colour lists; distinct sheet variable names.
- **Reference characterisations:** peaks, crossings, windows and the secondary axis are described by predicates and proved equal to what the code computes.

Consequences the proofs make explicit:
- A derivative appended after the first curve always goes on the secondary axis.
- An affine model curve goes there too whenever the first curve has an ordinary unit, because its name ends in a parenthesised equation that reads as a unit.
- The `dv == 0` branch of the crossing stage cannot be taken.
- The "nothing kept" exit of the outlier rejection cannot be taken once the median is positive.
- A second de-calibration is not a no-op whenever previous held other extents.
- Editing a time never re-sorts the curve.
- A data table left open after its curve was removed writes its stale copy over the curve that moved into that index.

## Model

| member | source | states |
|---|---|---|
| Text.TrimLeft | SysamSP5Acquisition_Vbeta.py:180 | `lstrip()` drops only leading white space: the result is a suffix of the input, the dropped part is all white space, and the result does not start with white space |
| Text.TrimRight | SysamSP5Acquisition_Vbeta.py:180 | `rstrip()` drops only trailing white space: a prefix of the input whose dropped tail is white space, not ending in white space |
| Text.Strip | SysamSP5Acquisition_Vbeta.py:180 | `strip()` yields a string that neither starts nor ends with white space and holds only characters of its input |
| Text.StripIsInfix | SysamSP5Acquisition_Vbeta.py:180 | `strip()` returns the infix `s[i..j]` of its input whose cut-off prefix `s[..i]` and suffix `s[j..]` are all white space |
| Text.StripKeepsContent | SysamSP5Acquisition_Vbeta.py:180 | only white space is stripped away: a string with a non-space character never strips to the empty string |
| Text.StripUntrimmed | SysamSP5Acquisition_Vbeta.py:180 | a string without surrounding white space is its own `strip()` |
| Text.BeforeFirst | SysamSP5Acquisition.py:604 | `split(c)[0]` is a prefix without `c`, followed in the input by `c` when shorter, and the whole input when there is no `c` |
| Text.AfterLast | SysamSP5Acquisition_Vbeta.py:180 | `split(c)[-1]` contains no `c` and is the whole input when there is no `c` |
| Text.AfterLastDelimited | SysamSP5Acquisition_Vbeta.py:180 | the text after the last `c` of `p + c + w` is `w` when `w` has no `c` |
| Text.RemoveChar | SysamSP5Acquisition_Vbeta.py:180 | `replace(')', '')` keeps exactly the characters other than `)` |
| Text.ReplaceChar | SysamSP5Acquisition.py:604 | `replace(a, b)` keeps the length and, position by position, turns every `a` into `b` and keeps every other character; it leaves no `a` and is the identity when `a` is absent |
| Text.NatToString | SysamSP5Acquisition.py:614 | `str(k)` is a non-empty string of decimal digits |
| Text.NatToStringValue | SysamSP5Acquisition.py:614 | the decimal digits `str(k)` prints, read back most significant first, spell `k` |
| Text.NatToStringLength | SysamSP5Acquisition.py:614 | a number of at least `10^m` prints with more than `m` digits |
| Names.ExtractUnit | SysamSP5Acquisition_Vbeta.py:176-183 | no unit exactly when the name lacks `(` or lacks `)`; a unit never contains a parenthesis and never starts or ends with white space |
| Names.ExtractUnitOf | SysamSP5Acquisition_Vbeta.py:176-183 | writing a plain unit `u` as a trailing `(u)` and reading it back gives `u` |
| Names.ExtractUnitAfterParen | SysamSP5Acquisition_Vbeta.py:176-183 | for a name `p + "(" + w` holding a `)`, where `w` has no `(`, the unit is `w` with every `)` removed and then stripped |
| Names.UnitsForModel | SysamSP5Acquisition.py:878-883 | the y-unit is the parsed unit, or `"U.A."` when there is none; the x-unit is always `"s"` |
| Names.SecondaryIndices | SysamSP5Acquisition_Vbeta.py:1623-1633 | exactly the indices `i >= 1` whose unit and the first curve's unit are non-empty and differ, or whose name carries the derivative marker; index 0 never |
| Names.AxisPartitionSplitsUnits | SysamSP5Acquisition_Vbeta.py:1623-1633 | two curves with different non-empty units are split across the two axes |
| Names.AxisPartitionKeepsUnits | SysamSP5Acquisition_Vbeta.py:1623-1633 | two curves sharing a unit share the primary axis unless the second is marked as a derivative |
| Names.AxisPartitionSplitExample | SysamSP5Acquisition_Vbeta.py:1623-1633 | `"U (V)"` then `"I (A)"` puts index 1 on the secondary axis |
| Names.AxisPartitionKeepExample | SysamSP5Acquisition_Vbeta.py:1623-1633 | `"U (V)"` then `"U2 (V)"` puts nothing on the secondary axis |
| Names.SecondaryOfTwo | SysamSP5Acquisition_Vbeta.py:1623-1633 | with two curves only the second can be secondary, and it is exactly when it qualifies |
| Names.NotDerivativeMarked | SysamSP5Acquisition_Vbeta.py:1632 | a name with no `D`, `d` or `é` carries no derivative marker |
| Names.DerivativeName | SysamSP5Acquisition.py:1022-1023 | the derivative's name carries the derivative marker, starts with `Dérivée d(` and ends in `)` |
| Names.DerivativeNameHoldsBase | SysamSP5Acquisition.py:1023 | the derivative's name starts with `Dérivée d(` followed by the base name up to its first `(`, stripped |
| Names.DerivativeUnitRoundTrip | SysamSP5Acquisition.py:1022-1023 | the unit read back from a derivative's name is the base curve's y-unit (default `"U.A."`) followed by `/s` |
| Names.DerivativeIsSecondary | SysamSP5Acquisition.py:1022-1023 | a derivative at any index `>= 1` is on the secondary axis, whatever the units |
| Stats.Min | SysamSP5Acquisition.py:1103 | `np.min` is an element that bounds every element from below |
| Stats.Max | SysamSP5Acquisition.py:1104 | `np.max` is an element that bounds every element from above |
| Stats.Variance | SysamSP5Acquisition.py:1075 | the quantity `np.std` takes the root of is never negative |
| Stats.MeanBounds | SysamSP5Acquisition.py:1074 | the mean of values within `[lo, hi]` lies within `[lo, hi]` |
| Stats.Diffs | SysamSP5Acquisition.py:1067 | `np.diff` has one entry fewer, and each entry added to its sample gives the next sample |
| Stats.StepwiseIncreasing | SysamSP5Acquisition.py:1256-1257 | positive consecutive steps mean strictly increasing times |
| Stats.FilterBelow | SysamSP5Acquisition.py:1071 | `d[d < bound]` keeps every element below the bound as often as it occurs and nothing else |
| Stats.SortBy | SysamSP5Acquisition.py:1258-1260 | the reorder is sorted by the key and is a permutation of the input |
| Stats.Median | SysamSP5Acquisition.py:1068 | `np.median` lies between the minimum and the maximum |
| Stats.IndicesWhere | SysamSP5Acquisition.py:1045-1048 | the indices below `n` that pass the test, each once, ascending, and no others |
| Stats.AllIndices | SysamSP5Acquisition.py:1094-1100 | an ascending list of indices below `n` that contains all of them is `0..n-1` |
| CurveSet.Pad | SysamSP5Acquisition_Vbeta.py:185-204 | the list has exactly `n` entries: its old entries first, then the default |
| CurveSet.PadIdempotent | SysamSP5Acquisition_Vbeta.py:185-204 | padding a list that already has `n` entries changes nothing, so syncing twice is syncing once |
| CurveSet.SyncVisible | SysamSP5Acquisition_Vbeta.py:185-193 | one flag per curve: existing flags kept, new ones `True`, nothing else changed |
| CurveSet.SyncColors | SysamSP5Acquisition_Vbeta.py:195-204 | one colour slot per curve: existing slots kept, new ones default, nothing else changed |
| CurveSet.Render | SysamSP5Acquisition.py:1514-1553 | after the redraw the flag and colour lists match the curves, previous takes the displayed extents unless they are the initial ones, the displayed extents are kept, and the secondary axis exists exactly when some curve belongs on it |
| CurveSet.RenderKeepsAligned | SysamSP5Acquisition.py:1514-1515 | redrawing an aligned view keeps every flag and colour |
| CurveSet.RenderKeepsSlots | SysamSP5Acquisition.py:1514-1515 | redrawing keeps the flag and colour of every curve that had one; only missing slots are filled |
| CurveSet.RemoveAt | SysamSP5Acquisition_Vbeta.py:430 | `pop(i)` shifts the later entries down by one and removes exactly one occurrence of the popped entry |
| CurveSet.RemoveCurve | SysamSP5Acquisition.py:328-340 | an index past the end is an error; otherwise the curve moves to the end of the trash (curves and trash together keep their multiset), the lists stay aligned, an active index that falls off the end resets to 0, the initial and displayed extents stay, previous follows the redraw rule, and the secondary axis exists exactly when some remaining curve belongs on it |
| CurveSet.RemoveCurveDropsItsSlots | SysamSP5Acquisition_Vbeta.py:430-434 | in an aligned view the removed curve's own flag and colour are the ones dropped |
| CurveSet.RestoreCurve | SysamSP5Acquisition.py:342-353 | an empty trash or an index out of range changes nothing; otherwise the curve leaves the trash for the end of the curve list, the multiset is kept, the lists stay aligned, the active index and the initial and displayed extents stay, previous follows the redraw rule, and the secondary axis exists exactly when some curve belongs on it |
| CurveSet.RestoreCurveVisible | SysamSP5Acquisition_Vbeta.py:442-453 | a restored curve comes back visible with the default colour, and every other curve keeps its own |
| CurveSet.RemoveThenRestore | SysamSP5Acquisition_Vbeta.py:428-453 | removing a curve and restoring it puts it at the end of the list, not at its old place, and leaves the trash as it was |
| CurveSet.SetActiveCurve | SysamSP5Acquisition.py:134-138 | the active index changes, and success is reported, exactly for the index of an existing curve |
| CurveSet.ActiveStaysInRange | SysamSP5Acquisition.py:134-138 | an index accepted as active stays a valid index after a later removal, through the reset in SysamSP5Acquisition.py:336-337 |
| CurveSet.RenameCurve | SysamSP5Acquisition.py:1835-1848 | a cancelled or blank answer changes nothing; otherwise the chosen curve gets the stripped answer as name and keeps its data, the other curves, the trash, the active index and the displayed extents stay, an aligned view keeps its flags and colours, previous follows the redraw rule, and the secondary axis is recomputed for the renamed curves |
| CurveSet.RecolorCurve | SysamSP5Acquisition.py:1849-1862 | a cancelled choice changes nothing; otherwise the chosen curve's slot of the synced colour list gets the colour, every other slot keeps its colour or the default, the curves, the trash, the active index and the displayed extents stay, an aligned view keeps its flags, previous follows the redraw rule, and the secondary axis is recomputed |
| Calibration.AllTimes | SysamSP5Acquisition_Vbeta.py:1479 | the concatenation holds every sample time of every curve and nothing else, and is empty exactly when no curve has samples |
| Calibration.AxisValues | SysamSP5Acquisition_Vbeta.py:1496-1509 | exactly the values of the shown curves on the requested axis; a missing flag counts as shown |
| Calibration.FitX | SysamSP5Acquisition_Vbeta.py:1480-1492 | a non-degenerate x-range centred on the data, framing every time, 5 % wider on each side, or 0.001 on each side for a single time |
| Calibration.FitY | SysamSP5Acquisition_Vbeta.py:1510-1521 | a non-degenerate y-range centred on the data, framing every value, 10 % wider on each side; for one repeated value `v`, 10 % of `\|v\|`, or `[-1, 1]` when `v = 0` |
| Calibration.AutoCalibrate | SysamSP5Acquisition_Vbeta.py:1464-1547 | previous takes the displayed extents; no curves restore the initial extents; otherwise x is the fit of all sample times (hidden curves too), y the fit of the shown primary values or the initial y-range when there are none, and the secondary range the fit of the shown secondary values whenever the view has a secondary axis with such values; each fit frames its values |
| Calibration.DeCalibrate | SysamSP5Acquisition_Vbeta.py:1549-1568 | a no-op with a notice exactly when previous and current are both initial; otherwise it shows previous, or initial when previous is initial, and previous becomes initial |
| Calibration.DeCalibrateTwice | SysamSP5Acquisition_Vbeta.py:1549-1568 | two consecutive de-calibrations always end at the initial extents |
| Calibration.DeCalibrateSecondMoves | SysamSP5Acquisition_Vbeta.py:1558-1567 | when previous held other extents, the second de-calibration is not a no-op |
| Calibration.AutoThenDeCalibrate | SysamSP5Acquisition_Vbeta.py:1464-1568 | de-calibrating right after an auto-calibration brings back the extents shown before it |
| Measure.CrossingFacts | SysamSP5Acquisition.py:1055-1060 | the interpolated crossing lies on the line through the two samples at the level, and inside a rising segment that reaches it |
| Measure.CrossingTime | SysamSP5Acquisition.py:1055-1060 | the interpolated time lies on the line through the two samples at the level, and inside `(t0, t1]` for a rising segment |
| Measure.UpCrossingRises | SysamSP5Acquisition.py:1054-1057 | at an upward crossing the signal strictly rises, so the `dv == 0` branch is never taken |
| Measure.PeakIndices | SysamSP5Acquisition.py:1043-1048 | exactly the interior indices strictly above both neighbours and at or above the threshold, ascending |
| Measure.CrossingIndices | SysamSP5Acquisition.py:1050-1062 | exactly the indices where the signal goes from below the level to at or above it, ascending |
| Measure.PeakTimes | SysamSP5Acquisition.py:1048 | the times of the detected peaks, in index order |
| Measure.CrossingTimes | SysamSP5Acquisition.py:1052-1062 | one interpolated time per upward crossing, in index order |
| Measure.Threshold | SysamSP5Acquisition.py:1039-1043 | the peak threshold lies between the minimum and the maximum, strictly for a non-flat signal, four times closer to the minimum |
| Measure.EventTimes | SysamSP5Acquisition.py:1043-1062 | the peak times when there are at least two peaks, otherwise the mean-crossing times; in strictly increasing order when the sample times are |
| Measure.PeakTimesIncreasing | SysamSP5Acquisition.py:1045-1048 | for strictly increasing times the peak times strictly increase |
| Measure.CrossingInSegment | SysamSP5Acquisition.py:1054-1060 | for strictly increasing times every crossing time lies in `(t[i], t[i+1]]` of its own segment |
| Measure.CrossingsIncreasing | SysamSP5Acquisition.py:1052-1062 | for strictly increasing times the crossing times strictly increase |
| Measure.KeptSpacings | SysamSP5Acquisition.py:1068-1073 | every spacing below ten medians is kept as often as it occurs and no other; a positive median keeps at least one, so the "nothing kept" exit is never taken |
| Measure.PeriodFromEvents | SysamSP5Acquisition.py:1064-1076 | fewer than two events give nothing; otherwise the events are returned, and a period exists exactly when the median spacing is positive: then the period is the mean and the spread the variance of the kept spacings, the period lying between the smallest and largest spacing |
| Measure.ComputePeriod | SysamSP5Acquisition.py:1033-1076 | fewer than three samples or a flat signal give no period; otherwise the peaks when there are two or more, else the mean crossings, feed the spacing statistics |
| Measure.SpacingsPositive | SysamSP5Acquisition.py:1067 | strictly increasing event times have only positive spacings |
| Measure.PeriodPositive | SysamSP5Acquisition.py:1033-1076 | for strictly increasing times a reported period is positive |
| Measure.WindowIndices | SysamSP5Acquisition.py:1091-1100 | exactly the indices of the samples with `t0 <= t <= t1`, ascending; a missing bound does not restrict |
| Measure.Window | SysamSP5Acquisition.py:1091-1100 | the kept samples, pairs kept together, in order, each inside the window, none missing |
| Measure.WindowUnbounded | SysamSP5Acquisition.py:1091 | without bounds every sample is kept |
| Measure.ExtremesBound | SysamSP5Acquisition.py:1103-1104 | `v_min <= v_max` and every value lies between them |
| Measure.Frequency | SysamSP5Acquisition.py:1107-1109 | a frequency exists exactly when the period is positive, and then frequency times period is 1 |
| Measure.MeasureSamples | SysamSP5Acquisition.py:1103-1120 | extremes among and bounding the values, the period and spread of the samples, the event count equal to the number of event times, and the frequency of the period |
| Measure.MeasureOnCurve | SysamSP5Acquisition.py:1078-1120 | `NoSuchCurve` exactly for a missing curve and `NoTimeData` exactly for one without samples; with a bound given, keeping fewer than two samples is exactly the `TooFewPointsInWindow` error; a curve with samples and at least two in the window, or no bound at all, gives the measurements of the windowed samples |
| Differences.Slopes | SysamSP5Acquisition.py:1020 | one slope per segment, each times its step giving the value change |
| Differences.Midpoints | SysamSP5Acquisition.py:1021 | one midpoint per segment, twice which is the sum of its ends |
| Differences.Integrate | SysamSP5Acquisition.py:1020 | the reference inverse of the slopes: starts at the start value, and each step adds slope times time step |
| Differences.IntegrateSlopes | SysamSP5Acquisition.py:1020 | integrating slopes that match every segment from the first value rebuilds the values |
| Derivative.DeriveSamples | SysamSP5Acquisition.py:1017-1021 | nothing for fewer than two samples; otherwise `n - 1` points, each time the midpoint of its segment and each value the slope of its segment |
| Derivative.Derive | SysamSP5Acquisition.py:1017-1024 | nothing for fewer than two samples; otherwise the derivative samples as a computed curve named as the derivative of the original |
| Derivative.DeriveInsideSegment | SysamSP5Acquisition.py:1021 | every derivative time lies strictly between the two sample times it comes from |
| Derivative.IntegrateDerivative | SysamSP5Acquisition.py:1020-1021 | integrating the derivative from the first value gives back the curve's values |
| Derivative.DeriveLine | SysamSP5Acquisition.py:1020 | samples of a straight line have its slope everywhere as derivative |
| Derivative.DeriveSquares | SysamSP5Acquisition.py:1020-1021 | `v = t²` at `t = 0, 1, 2, ...` has derivative `2i + 1` at `i + 0.5`, so `0..4` gives `1, 3, 5, 7` at `0.5..3.5` |
| Fit.ExponentialSeed | SysamSP5Acquisition.py:948-951 | an empty curve has no seed; otherwise `A0 + C0` is the first value, `C0` the last, and `τ0` a third of the last time, or 1 when that time is 0, so never 0 |
| Fit.ExponentialSeedEndpoints | SysamSP5Acquisition.py:852-853 | the seeded exponential passes through the first value at time 0 |
| Fit.ClampTimes | SysamSP5Acquisition.py:980-983 | every time is positive afterwards: positive times kept, every other time replaced by `1e-6` |
| Fit.ClampTimesIdempotent | SysamSP5Acquisition.py:980-983 | clamping twice is clamping once, and clamping positive times changes nothing |
| Fit.PowerBase | SysamSP5Acquisition.py:856 | `max(1e-9, x)` is positive, at least `x`, and `x` itself from `1e-9` on |
| Fit.FitTimes | SysamSP5Acquisition.py:980-987 | the model is evaluated on the curve's own times, clamped only for the power fit |
| Fit.ModelCurve | SysamSP5Acquisition.py:898-905 | the appended model curve is well formed, as long as the input, sampled at the fitting times, with each value the model at its time, flagged as computed |
| Fit.Evaluate | SysamSP5Acquisition.py:846-857 | the model functions at time 0: `0` for the linear model, the intercept `b` for the affine one, `A + C` for the exponential one (with `exp(0) = 1`); a power model with `A = 0` is the constant `B` |
| Fit.ModelSlope | SysamSP5Acquisition.py:846-850 | the linear and affine models change by `a` per unit of time |
| Fit.ModelName | SysamSP5Acquisition.py:904-994 | each fit names its model curve after its kind (`Modèle Linéaire`, `Affine`, `Exp.`, `Puissance`); the linear name ends in the base curve's name, the others in `)` |
| Fit.PowerCurvePositive | SysamSP5Acquisition.py:980-987 | a power-model curve has only positive times, which the `max(1e-9, ·)` guard leaves alone |
| Fit.LinearModelKeepsUnit | SysamSP5Acquisition.py:904 | the linear model's name ends in the base name, so it reads back the base curve's unit |
| Fit.AffineModelUnit | SysamSP5Acquisition.py:930 | the affine model's name reads back its own equation as unit |
| Fit.AffineModelIsSecondary | SysamSP5Acquisition.py:930 | so an affine model curve goes on the secondary axis whenever the first curve has an ordinary unit |
| Fit.ParameterUnits | SysamSP5Acquisition.py:899-991 | one unit per fitted parameter: linear `[uy/s]`; affine `[uy/s, uy]`; exponential `[uy, s, uy]` for `A`, `τ`, `C`; power `uy/(s^n)` for `A`, or `uy` when `n = 0`, then `sans unité` for `n` and `uy` for `B` |
| Fit.SlopeUnitIsDerivativeUnit | SysamSP5Acquisition.py:899-901 | the slope unit of a linear or affine fit is the unit of the same curve's derivative |
| Spectrum.Zip | SysamSP5Acquisition.py:1258-1260 | the samples as `(time, value)` pairs, one per index |
| Spectrum.ZipRoundTrip | SysamSP5Acquisition.py:1258-1260 | splitting zipped samples gives back both arrays, and zipping split samples gives back the samples |
| Spectrum.PrepareInput | SysamSP5Acquisition.py:1254-1261 | nothing for fewer than two samples; otherwise arrays of the same length, in time order, with the same `(time, value)` samples; strictly increasing input is left as it is |
| Spectrum.PreparedSamplesAreSamples | SysamSP5Acquisition.py:1258-1260 | every prepared sample is one of the curve's samples |
| Spectrum.SumOfSteps | SysamSP5Acquisition.py:1262 | the time steps add up to the last time minus the first |
| Spectrum.MeanStepOfSorted | SysamSP5Acquisition.py:1262 | for ordered times the mean step times the number of steps is the span, never negative, and zero exactly when all times are equal |
| Spectrum.MeanStep | SysamSP5Acquisition.py:1262 | for prepared input `1/mean(dt)` divides by zero exactly when all times are equal |
| CalcSheet.Mangle | SysamSP5Acquisition.py:604 | the variable name is the curve name up to its first `(`, stripped, with every space and dash turned into `_` position by position; so it has no space, dash or `(` |
| CalcSheet.MangleIdentity | SysamSP5Acquisition.py:604 | a name that is already a plain identifier is its own variable name |
| CalcSheet.SheetUnit | SysamSP5Acquisition.py:605 | the unit has no parenthesis, and is `V` when the name has no `(` |
| CalcSheet.SheetUnitAfterParen | SysamSP5Acquisition.py:605 | for a name `p + "(" + w` where `w` has no `(`, the unit is `w` with every `)` removed and then stripped, with or without a `)` |
| CalcSheet.FreeSuffix | SysamSP5Acquisition.py:611-614 | the `while` loop ends at the smallest suffix from `k` on whose name is free |
| CalcSheet.LongSuffixIsFree | SysamSP5Acquisition.py:611-614 | a suffix with more digits than the longest name is always free, so the loop ends |
| CalcSheet.FreshKey | SysamSP5Acquisition.py:607-615 | the bound name is fresh; it is the mangled name itself when free, else with the smallest free suffix from 2 on |
| CalcSheet.CountMatchingExtremes | SysamSP5Acquisition.py:603-606 | the number of curves with the base length is at most the number visited, zero exactly when none has that length and all of them exactly when every one has it |
| CalcSheet.BindCurves | SysamSP5Acquisition.py:603-615 | the names stay distinct; one binding per matching curve, appended after the earlier ones, each with the required length |
| CalcSheet.BindCurvesPlacesCurve | SysamSP5Acquisition.py:603-615 | a matching curve is bound after all earlier matching curves, under its name made fresh against the names bound before it |
| CalcSheet.BindCurvesFromCurves | SysamSP5Acquisition.py:603-615 | every binding holds the data and unit of a matching curve |
| CalcSheet.Namespace | SysamSP5Acquisition.py:596-618 | no curves or no curve bound are the two errors; otherwise `t` is bound first to the first curve's times in `s`, then one distinct name per curve whose value count equals the number of times |
| CalcSheet.NamespaceBindsCurve | SysamSP5Acquisition.py:603-615 | every curve with as many values as there are base times is bound, under its mangled name made fresh |
| CalcSheet.NamespaceFromCurves | SysamSP5Acquisition.py:603-615 | every variable after `t` is the data and unit of such a curve |
| CalcSheet.FreshAgainstTime | SysamSP5Acquisition.py:607-615 | against `t` alone a name is kept, except `t`, which becomes `t_2` |
| CalcSheet.FirstCurveBound | SysamSP5Acquisition.py:596-615 | a well-formed first curve is always bound right after `t`, so the sheet always opens on a view with curves |
| Session.SelectCurve | SysamSP5Acquisition_Vbeta.py:2072-2100 | no curves give no choice, a single curve is chosen without asking, and otherwise the confirmed pick |
| Session.TryAutoCalibrate | SysamSP5Acquisition_Vbeta.py:1464-1479 | previous takes the displayed extents in every case; when the data make the concatenation fail, that is the only change |
| Session.Refresh | SysamSP5Acquisition.py:1520-1538 | after the redraw and auto-calibration the lists are aligned, curves and trash unchanged, every existing flag and colour kept, previous holds the extents shown before, and the x-range frames every sample once some curve has samples |
| Session.OpenTable | SysamSP5Acquisition_Vbeta.py:546-558 | a table exactly for an existing index, holding that curve's data |
| Session.StoreTable | SysamSP5Acquisition_Vbeta.py:674-678 | the table replaces the curve at its index when that index exists; otherwise nothing changes |
| Session.EditCell | SysamSP5Acquisition_Vbeta.py:639-683 | a non-number in the time or value column changes nothing; a number replaces that one cell; a computed column leaves the table as it is; in every other case the table is written back and the view refreshed |
| Session.EditFreshTable | SysamSP5Acquisition_Vbeta.py:646-683 | editing a time changes exactly that sample of that curve, and nothing else in the curves, trash, flags or colours |
| Session.EditCanUnsort | SysamSP5Acquisition_Vbeta.py:646-676 | moving a first time past the second leaves the curve's times out of order: the edit never re-sorts |
| Session.ComputedEditKeepsCurves | SysamSP5Acquisition_Vbeta.py:664-678 | editing a computed column leaves every curve as it is |
| Session.StaleTableOverwrites | SysamSP5Acquisition_Vbeta.py:674-678 | after the table's curve was removed, an edit writes it over the curve now at that index, so it is shown again while still in the trash |
| Session.AppendCurve | SysamSP5Acquisition.py:1024-1027 | the appended curve ends the list, the lists are aligned, an aligned view keeps every existing flag and colour, the trash, the active index and the initial extents stay, previous holds the extents shown before, the secondary axis exists exactly when some curve belongs on it, and the x-range frames every time of the new curve (the same `append`, `plot_mode_unique`, `auto_calibrate_plot` closes each fit, e.g. lines 905-907) |
| Session.AddDerivative | SysamSP5Acquisition.py:1007-1027 | fewer than two samples change nothing; otherwise the derivative is appended, the secondary axis exists, the lists are aligned, an aligned view keeps every existing flag and colour, the trash, the active index and the initial extents stay, previous holds the extents shown before, and the x-range frames every derivative time |
| Session.ParameterCount | SysamSP5Acquisition.py:896-985 | each model fits one to three parameters: one for the linear model (`p0=[1.0]`, line 896), two for the affine one (line 922), three for the exponential (line 952) and power (line 985) ones |
| Session.AddModelCurve | SysamSP5Acquisition.py:885-1001 | a failed fit, or too few samples for the model's parameters, changes nothing; otherwise the model curve with its fit name is appended, the lists are aligned, an aligned view keeps every existing flag and colour, the trash, the active index and the initial extents stay, previous holds the extents shown before, the secondary axis exists exactly when some curve belongs on it, and the x-range frames every fitting time |
| Session.AffineModelOnSecondaryAxis | SysamSP5Acquisition_Vbeta.py:1036-1058 | adding an affine model after a first curve with an ordinary unit turns on the secondary axis |

## Left out

- Tk dialogs, menus and layout are left out because they are user interface. The model keeps only what a dialog decides:
  - an index, an answer or a colour as an `Option`;
  - the number typed into a table cell as `Option<real>`.
- Drawing is left out: artists, colours, legends, the twin axis as a matplotlib object and reticule mouse tracking. `Render` keeps only the state `plot_mode_unique` changes.
- Printing, the clipboard, file dialogs and CSV and `.ltp` reading and writing are left out as operating-system I/O.
- Acquisition from the SYSAM hardware and the oscilloscope animation loop are left out as device I/O.
- `curve_fit` itself is left out. The fitted parameters are an input of `AddModelCurve`; `None` stands for a solver failure.
- Session.AddModelCurve: the "fewer samples than parameters" refusal is the solver library's own check, stated here as a rule. Other solver failures come in through the same `None`.
- `exp`, `x^n` and the `.2e`/`.2f` number formats are function-valued parameters. They are not interpreted.
- Parsing of a typed number is left out: `strip()`, the comma swap and `float()`. The parse result is the `entry` input of `EditCell`.
- The spectrum itself is left out: the Hann window, `rfft`, the amplitude normalisation and `rfftfreq` are floating-point library numerics. Only the guard and the reorder before them are modelled.
- User formulas run through `eval`, and the regex deny-list guarding them, are left out as dynamic evaluation. The sheet's variable namespace is modelled; the computed columns of the data table are not.
- Stats.Variance: `np.std` is modelled by the variance it takes the square root of, because reals have no square root here. Only the spread's sign is stated.
- Measure.PeriodFromEvents: the spread is the variance of the kept spacings, not the standard deviation `np.std` returns, for the same reason.
- Floating point is modelled as exact reals, so rounding and overflow are not modelled.
- Session.AddDerivative requires distinct consecutive times, inheriting the precondition of Derivative.Derive.
- Derivative.Derive and Derivative.DeriveSamples require distinct consecutive times. Equal times make numpy produce `inf`/`nan`, which exact reals cannot represent.
- Fit.Evaluate, Fit.ModelCurve and Session.AddModelCurve require `τ != 0` for the exponential model, for the same reason. The seed is never 0 (`Fit.ExponentialSeed`).
- Calibration.AutoCalibrate requires a view with no curves or with some sample. A view whose curves are all empty makes `np.concatenate([])` raise. `Session.TryAutoCalibrate` models that crash as "only previous changes".
- Text.Lower lowers ASCII letters only. It is used only in the `'derive' in name.lower()` test, where that is enough:
  - every other code point that Python lowers does not become one of `d`, `e`, `r`, `i`, `v`;
  - the exception is `İ`, which lowers to `i` followed by a combining dot, so it cannot be followed by `v` in a match.
- CurveSet.Render: keeps the displayed extents, as SysamSP5Acquisition.py:1531-1538 restores them after `ax.clear()`. In SysamSP5Acquisition_Vbeta.py `ax.clear()` (line 1621) leaves the limits to matplotlib's autoscaling, which is not modelled, so every operation that ends in a redraw states the extents of SysamSP5Acquisition.py.
- Session.Refresh: follows SysamSP5Acquisition.py. In SysamSP5Acquisition_Vbeta.py the redraw clears the axes (line 1621) without restoring the extents, so the auto-calibration that follows (line 1472) stores matplotlib's autoscaled range as previous, not the extents shown before. When the auto-calibration succeeds, both copies end with the same fitted current extents and only previous differs. When curves exist but none has samples, SysamSP5Acquisition_Vbeta.py raises at line 1479 (`np.concatenate` of nothing) before any `set_xlim`/`set_ylim`, so it keeps matplotlib's autoscaled extents, whereas `Session.TryAutoCalibrate` keeps the extents shown before.
- CurveSet.RemoveCurve takes a natural index. Python's negative `pop` indices are never produced by the dialog that calls it.
- Stats.SortBy is a stable sort where `np.argsort` uses quicksort. The order among samples with equal times may differ; the result is still sorted and a permutation.
- Stats.Median: the median is stated only to lie between the minimum and the maximum. That bound is all the period estimate needs.
- The separate copies of the measurement, derivative and fitting code in the two files are modelled once; they are the same code.
- The visibility check boxes of `manage_curves_dialog` are left out as dialog plumbing: they write one flag each, and the flags enter the model as data of the view.
- Module-level globals, the `Config` record and style settings are replaced by the explicit `View` record, or left out when they only affect drawing.

=== FILE: calcsheet.dfy ===
/** The variables `open_calcul_sheet` offers to user formulas: `t` bound to
    the first curve's times, then one variable per curve whose value count
    matches, named after the curve with white space and dashes turned into
    underscores, and a `_2`, `_3`, ... suffix when the name is taken. */
module CalcSheet {
  import opened Wrappers
  import opened Text
  import opened Curves

  /** One variable of the sheet: its name, its data and its unit. */
  datatype Binding = Binding(key: string, values: seq<real>, unit: string)

  datatype SheetError =
    | NoBaseTime       // the view has no curve, so no time base
    | NothingToCompute // no curve besides `t` could be bound

  /** The character a variable name shows in place of `c`. */
  function Underscored(c: char): char
  {
    if c == ' ' || c == '-' then '_' else c
  }

  /** The variable name of a curve: its name up to the first `(`, stripped,
      with every space and every dash replaced by an underscore, position by
      position. */
  function Mangle(name: string): (r: string)
    ensures var head := Strip(BeforeFirst(name, '('));
            |r| == |head| && forall i | 0 <= i < |head| :: r[i] == Underscored(head[i])
    ensures |r| <= |name|
    ensures ' ' !in r && '-' !in r && '(' !in r
    ensures forall c | c in r && c != '_' :: c in name
  {
    var head := Strip(BeforeFirst(name, '('));
    assert '(' !in head;
    ReplaceSpacesAndDashes(head);
    ReplaceChar(ReplaceChar(head, ' ', '_'), '-', '_')
  }

  /** Replacing spaces and then dashes by `_` maps every character through
      `Underscored`. */
  lemma ReplaceSpacesAndDashes(head: string)
    ensures var r := ReplaceChar(ReplaceChar(head, ' ', '_'), '-', '_');
            && |r| == |head| && (forall i | 0 <= i < |head| :: r[i] == Underscored(head[i]))
            && ' ' !in r && '-' !in r
            && (forall c | c in r && c != '_' :: c in head)
  {
    var r := ReplaceChar(ReplaceChar(head, ' ', '_'), '-', '_');
    assert forall i | 0 <= i < |head| :: r[i] == Underscored(head[i]);
    UnderscoredFacts(head, r);
  }

  /** A string mapped character by character through `Underscored` has no
      space or dash, and keeps only the characters it had besides `_`. */
  lemma UnderscoredFacts(head: string, r: string)
    requires |r| == |head| && forall i | 0 <= i < |head| :: r[i] == Underscored(head[i])
    ensures ' ' !in r && '-' !in r
    ensures forall c | c in r && c != '_' :: c in head
  {
    forall c | c in r && c != '_'
      ensures c in head
    {
      var i :| 0 <= i < |r| && r[i] == c;
      assert head[i] == c;
    }
  }

  /** A name that is already a plain identifier is its own variable name. */
  lemma MangleIdentity(name: string)
    requires ' ' !in name && '-' !in name && '(' !in name
    requires |name| > 0 ==> !IsSpace(name[0]) && !IsSpace(name[|name| - 1])
    ensures Mangle(name) == name
  {
    StripUntrimmed(name);
  }

  /** The unit the sheet shows for a curve: the text after the last `(`
      without `)`, stripped, or `V` when the name has no `(`. */
  function SheetUnit(name: string): (r: string)
    ensures '(' !in r && ')' !in r
    ensures '(' !in name ==> r == "V"
  {
    if '(' in name then Strip(RemoveChar(AfterLast(name, '('), ')')) else "V"
  }

  /** The sheet reads the unit from the text `w` after the last `(`: every
      `)` in it removed and the rest stripped, with or without a `)`. */
  lemma SheetUnitAfterParen(p: string, w: string)
    requires '(' !in w
    ensures SheetUnit(p + "(" + w) == Strip(RemoveChar(w, ')'))
  {
    var name := p + "(" + w;
    assert name == p + ['('] + w;
    assert name[|p|] == '(';
    AfterLastDelimited(p, w, '(');
  }

  function Keys(ns: seq<Binding>): (r: seq<string>)
    ensures |r| == |ns|
    ensures forall i | 0 <= i < |ns| :: r[i] == ns[i].key
  {
    seq(|ns|, i requires 0 <= i < |ns| => ns[i].key)
  }

  predicate DistinctKeys(ns: seq<Binding>)
  {
    forall i, j | 0 <= i < j < |ns| :: ns[i].key != ns[j].key
  }

  /** `f"{base}_{k}"`. */
  function Suffixed(base: string, k: nat): string
  {
    base + "_" + NatToString(k)
  }

  function MaxLength(keys: seq<string>): (r: nat)
    ensures forall i | 0 <= i < |keys| :: |keys[i]| <= r
  {
    if |keys| == 0 then 0
    else
      var m := MaxLength(keys[1..]);
      assert forall i | 1 <= i < |keys| :: keys[i] == keys[1..][i - 1];
      if |keys[0]| > m then |keys[0]| else m
  }

  /** Once `k` has more digits than the longest key is long, the suffixed
      name is longer than every key and so is free. */
  lemma LongSuffixIsFree(base: string, keys: seq<string>, k: nat)
    ensures k >= Pow10(MaxLength(keys)) ==> Suffixed(base, k) !in keys
  {
    if k >= Pow10(MaxLength(keys)) {
      NatToStringLength(k, MaxLength(keys));
      assert |Suffixed(base, k)| > MaxLength(keys);
    }
  }

  /** The smallest `j >= k` whose suffixed name is free: the `while
      temp_name in available_data` loop. */
  function FreeSuffix(base: string, keys: seq<string>, k: nat): (r: nat)
    ensures r >= k
    ensures Suffixed(base, r) !in keys
    ensures forall j | k <= j < r :: Suffixed(base, j) in keys
    decreases Pow10(MaxLength(keys)) - k
  {
    LongSuffixIsFree(base, keys, k);
    if Suffixed(base, k) !in keys then k
    else FreeSuffix(base, keys, k + 1)
  }

  /** The name a new variable gets: the mangled name itself when free,
      otherwise the mangled name with the smallest free suffix from 2 on. */
  function FreshKey(base: string, keys: seq<string>): (r: string)
    ensures r !in keys
    ensures base !in keys ==> r == base
    ensures base in keys ==> exists k: nat | k >= 2 ::
      && r == Suffixed(base, k)
      && forall j | 2 <= j < k :: Suffixed(base, j) in keys
  {
    if base !in keys then base
    else Suffixed(base, FreeSuffix(base, keys, 2))
  }

  /** What the loop computes for one curve before binding it: the mangled
      name, the data and the unit. */
  datatype Candidate = Candidate(name: string, values: seq<real>, unit: string)

  function CandidateOf(c: Curve): Candidate
  {
    Candidate(Mangle(c.name), c.values, SheetUnit(c.name))
  }

  function Candidates(curves: seq<Curve>): (r: seq<Candidate>)
    ensures |r| == |curves|
    ensures forall i | 0 <= i < |r| :: r[i] == CandidateOf(curves[i])
  {
    seq(|curves|, i requires 0 <= i < |curves| => CandidateOf(curves[i]))
  }

  /** The number of the first `n` candidates with exactly `len` values. */
  function CountMatching(cs: seq<Candidate>, len: nat, n: nat): (r: nat)
    requires n <= |cs|
    ensures r <= n
  {
    if n == 0 then 0
    else CountMatching(cs, len, n - 1) + (if |cs[n - 1].values| == len then 1 else 0)
  }

  /** No candidate is counted exactly when none has `len` values, and all
      are counted exactly when every one has. */
  lemma {:induction false} CountMatchingExtremes(cs: seq<Candidate>, len: nat, n: nat)
    requires n <= |cs|
    ensures CountMatching(cs, len, n) == 0 <==> forall i | 0 <= i < n :: |cs[i].values| != len
    ensures CountMatching(cs, len, n) == n <==> forall i | 0 <= i < n :: |cs[i].values| == len
    decreases n
  {
    if n > 0 {
      CountMatchingExtremes(cs, len, n - 1);
    }
  }

  lemma {:induction false} CountMonotone(cs: seq<Candidate>, len: nat, m: nat, n: nat)
    requires m <= n <= |cs|
    ensures CountMatching(cs, len, m) <= CountMatching(cs, len, n)
    decreases n - m
  {
    if m < n {
      CountMonotone(cs, len, m, n - 1);
    }
  }

  /** A matching candidate counts before every later position. */
  lemma CountBefore(cs: seq<Candidate>, len: nat, i: nat, m: nat)
    requires i < m <= |cs| && |cs[i].values| == len
    ensures CountMatching(cs, len, i) < CountMatching(cs, len, m)
  {
    CountMonotone(cs, len, i + 1, m);
  }

  /** Adding a variable under a name not yet bound keeps the names distinct. */
  function AddBinding(ns: seq<Binding>, b: Binding): (r: seq<Binding>)
    requires DistinctKeys(ns) && b.key !in Keys(ns)
    ensures DistinctKeys(r)
    ensures |r| == |ns| + 1 && r[..|ns|] == ns && r[|ns|] == b
  {
    assert forall i | 0 <= i < |ns| :: ns[i].key == Keys(ns)[i];
    ns + [b]
  }

  /** The binding a candidate gets when `keys` are taken. */
  function BindingFor(c: Candidate, keys: seq<string>): (r: Binding)
    ensures r.key !in keys && r.values == c.values && r.unit == c.unit
  {
    Binding(FreshKey(c.name, keys), c.values, c.unit)
  }

  /** The bindings after the first `n` candidates have been visited: every
      candidate with `len` values is bound under a fresh name, in curve
      order; the others are skipped. */
  function BindCurves(ns: seq<Binding>, cs: seq<Candidate>, len: nat, n: nat): (r: seq<Binding>)
    requires n <= |cs| && DistinctKeys(ns)
    ensures DistinctKeys(r)
    ensures |r| == |ns| + CountMatching(cs, len, n)
    ensures r[..|ns|] == ns
    ensures forall j | |ns| <= j < |r| :: |r[j].values| == len
    decreases n
  {
    if n == 0 then ns
    else
      var prev := BindCurves(ns, cs, len, n - 1);
      if |cs[n - 1].values| == len then AddBinding(prev, BindingFor(cs[n - 1], Keys(prev)))
      else prev
  }

  /** Each candidate with `len` values has its binding at the position given
      by the number of matching candidates before it: its own data and unit,
      under the fresh name for its mangled name given the names bound
      before it. */
  lemma {:induction false} BindCurvesPlacesCurve(ns: seq<Binding>, cs: seq<Candidate>, len: nat, n: nat, i: nat)
    requires n <= |cs| && DistinctKeys(ns)
    requires i < n && |cs[i].values| == len
    ensures var r := BindCurves(ns, cs, len, n);
            var j := |ns| + CountMatching(cs, len, i);
            j < |r| && r[j] == BindingFor(cs[i], Keys(r[..j]))
    decreases n
  {
    var r := BindCurves(ns, cs, len, n);
    var prev := BindCurves(ns, cs, len, n - 1);
    var j := |ns| + CountMatching(cs, len, i);
    assert r == if |cs[n - 1].values| == len then AddBinding(prev, BindingFor(cs[n - 1], Keys(prev))) else prev;
    if i < n - 1 {
      BindCurvesPlacesCurve(ns, cs, len, n - 1, i);
      CountBefore(cs, len, i, n - 1);
      PrefixAgrees(r, prev, j);
    } else {
      assert j == |prev|;
    }
  }

  lemma PrefixAgrees<T>(r: seq<T>, prev: seq<T>, j: nat)
    requires |prev| <= |r| && r[..|prev|] == prev && j < |prev|
    ensures r[j] == prev[j] && r[..j] == prev[..j]
  {
    assert r[j] == r[..|prev|][j];
    assert r[..j] == r[..|prev|][..j];
  }

  /** Every binding after the first `|ns|` holds the data and unit of some
      candidate with `len` values. */
  lemma {:induction false} BindCurvesFromCurves(ns: seq<Binding>, cs: seq<Candidate>, len: nat, n: nat, j: nat)
    requires n <= |cs| && DistinctKeys(ns)
    requires |ns| <= j < |BindCurves(ns, cs, len, n)|
    ensures exists i | 0 <= i < n ::
      && |cs[i].values| == len
      && BindCurves(ns, cs, len, n)[j].values == cs[i].values
      && BindCurves(ns, cs, len, n)[j].unit == cs[i].unit
    decreases n
  {
    var prev := BindCurves(ns, cs, len, n - 1);
    if j < |prev| {
      BindCurvesFromCurves(ns, cs, len, n - 1, j);
      assert BindCurves(ns, cs, len, n)[..|prev|] == prev;
      assert BindCurves(ns, cs, len, n)[j] == BindCurves(ns, cs, len, n)[..|prev|][j];
    } else {
      assert BindCurves(ns, cs, len, n)[j] == BindingFor(cs[n - 1], Keys(prev));
    }
  }

  /** The number of curves `open_calcul_sheet` binds: those with as many
      values as the first curve has times. */
  function BoundCount(curves: seq<Curve>): (r: nat)
    requires |curves| > 0
    ensures r <= |curves|
  {
    CountMatching(Candidates(curves), |curves[0].time|, |curves|)
  }

  /** The sheet's variables for the curves of a view: `t` with unit `s`
      first, then the bound curves; no sheet without a curve, nor when no
      curve could be bound. */
  function Namespace(curves: seq<Curve>): (r: Result<seq<Binding>, SheetError>)
    ensures r == Failure(NoBaseTime) <==> |curves| == 0
    ensures r == Failure(NothingToCompute) <==> |curves| > 0 && BoundCount(curves) == 0
    ensures r.Success? ==>
      && |r.value| == 1 + BoundCount(curves)
      && r.value[0] == Binding("t", curves[0].time, "s")
      && DistinctKeys(r.value)
      && forall j | 1 <= j < |r.value| :: |r.value[j].values| == |curves[0].time|
  {
    if |curves| == 0 then Failure(NoBaseTime)
    else
      var base := [Binding("t", curves[0].time, "s")];
      var ns := BindCurves(base, Candidates(curves), |curves[0].time|, |curves|);
      assert ns[0] == ns[..1][0];
      if |ns| == 1 then Failure(NothingToCompute) else Success(ns)
  }

  /** Every curve with as many values as the first curve has times is bound,
      after the variables of the curves before it: its own data and unit,
      under its mangled name made fresh against the names bound before it. */
  lemma NamespaceBindsCurve(curves: seq<Curve>, i: nat)
    requires i < |curves| && |curves[i].values| == |curves[0].time|
    ensures Namespace(curves).Success?
    ensures var ns := Namespace(curves).value;
            exists j | 1 <= j < |ns| :: ns[j] == BindingFor(CandidateOf(curves[i]), Keys(ns[..j]))
  {
    var cs := Candidates(curves);
    assert cs[i] == CandidateOf(curves[i]);
    BindsCandidate([Binding("t", curves[0].time, "s")], cs, |curves[0].time|, i);
  }

  lemma BindsCandidate(ns: seq<Binding>, cs: seq<Candidate>, len: nat, i: nat)
    requires DistinctKeys(ns) && i < |cs| && |cs[i].values| == len
    ensures var r := BindCurves(ns, cs, len, |cs|);
            |r| > |ns| && exists j | |ns| <= j < |r| :: r[j] == BindingFor(cs[i], Keys(r[..j]))
  {
    CountBefore(cs, len, i, |cs|);
    BindCurvesPlacesCurve(ns, cs, len, |cs|, i);
  }

  /** Conversely, every variable after `t` holds the data and unit of a
      curve with as many values as the first curve has times. */
  lemma NamespaceFromCurves(curves: seq<Curve>, j: nat)
    requires Namespace(curves).Success? && 1 <= j < |Namespace(curves).value|
    ensures exists i | 0 <= i < |curves| ::
      && |curves[i].values| == |curves[0].time|
      && Namespace(curves).value[j].values == curves[i].values
      && Namespace(curves).value[j].unit == SheetUnit(curves[i].name)
  {
    var cs := Candidates(curves);
    var base := [Binding("t", curves[0].time, "s")];
    BindCurvesFromCurves(base, cs, |curves[0].time|, |curves|, j);
    var i :| 0 <= i < |curves| && |cs[i].values| == |curves[0].time|
           && BindCurves(base, cs, |curves[0].time|, |curves|)[j].values == cs[i].values
           && BindCurves(base, cs, |curves[0].time|, |curves|)[j].unit == cs[i].unit;
    assert cs[i] == CandidateOf(curves[i]);
  }

  /** A name is fresh against `t` unless it is `t`, which becomes `t_2`. */
  lemma FreshAgainstTime(name: string)
    ensures FreshKey(name, ["t"]) == if name == "t" then "t_2" else name
  {
    if name == "t" {
      assert NatToString(2) == "2";
      assert Suffixed("t", 2) == "t_2";
      assert "t_2" !in ["t"];
    }
  }

  /** The first candidate, when it matches, is bound right after the base. */
  lemma FirstCandidateBound(base: Binding, cs: seq<Candidate>, len: nat)
    requires |cs| > 0 && |cs[0].values| == len
    ensures |BindCurves([base], cs, len, |cs|)| >= 2
    ensures BindCurves([base], cs, len, |cs|)[1] == BindingFor(cs[0], [base.key])
  {
    CountBefore(cs, len, 0, |cs|);
    BindCurvesPlacesCurve([base], cs, len, |cs|, 0);
    var r := BindCurves([base], cs, len, |cs|);
    assert r[..1] == [base];
    assert Keys(r[..1]) == [base.key];
  }

  /** A well-formed first curve is always bound right after `t`, so a view
      with such a curve has a sheet; a first curve whose mangled name is
      `t` collides with the time base and becomes `t_2`. */
  lemma FirstCurveBound(curves: seq<Curve>)
    requires |curves| > 0 && curves[0].WellFormed()
    ensures Namespace(curves).Success?
    ensures Namespace(curves).value[1].values == curves[0].values
    ensures Namespace(curves).value[1].key == if Mangle(curves[0].name) == "t" then "t_2" else Mangle(curves[0].name)
  {
    var cs := Candidates(curves);
    FirstCandidateBound(Binding("t", curves[0].time, "s"), cs, |curves[0].time|);
    assert cs[0] == CandidateOf(curves[0]);
    FreshAgainstTime(Mangle(curves[0].name));
  }
}

=== FILE: calibration.dfy ===
/** The two calibration commands of a view: `auto_calibrate_plot`, which
    fits the extents to the data (x over every curve, y over the visible
    curves of the main axis, and the secondary axis over its own visible
    curves), and `de_calibrate_plot`, the one-level undo over the
    initial/previous/current extents. */
module Calibration {
  import opened Wrappers
  import opened Curves
  import opened Names
  import opened CurveSet
  import opened Stats

  /** Some curve has at least one time sample. */
  predicate HasSamples(curves: seq<Curve>)
  {
    exists i | 0 <= i < |curves| :: |curves[i].time| > 0
  }

  /** Every time sample of every curve, in curve order. */
  function AllTimes(curves: seq<Curve>): (r: seq<real>)
    ensures forall i, j | 0 <= i < |curves| && 0 <= j < |curves[i].time| :: curves[i].time[j] in r
    ensures forall x | x in r :: exists i | 0 <= i < |curves| :: x in curves[i].time
    ensures |r| > 0 <==> HasSamples(curves)
  {
    if |curves| == 0 then []
    else
      var p := curves[..|curves| - 1];
      var last := curves[|curves| - 1];
      var rest := AllTimes(p);
      assert forall i | 0 <= i < |p| :: p[i] == curves[i];
      assert HasSamples(curves) <==> HasSamples(p) || |last.time| > 0;
      rest + last.time
  }

  /** A curve counts as shown unless it has a flag and the flag is false;
      a missing flag counts as shown. */
  predicate Shown(flags: seq<bool>, i: nat)
  {
    i >= |flags| || flags[i]
  }

  /** Curve `i` is shown and sits on the requested axis. */
  predicate OnAxis(curves: seq<Curve>, flags: seq<bool>, secondary: bool, i: nat)
    requires i < |curves|
  {
    Shown(flags, i) && IsSecondary(curves, i) == secondary
  }

  /** The values of the first `n` curves that are shown on the requested axis. */
  function AxisValues(curves: seq<Curve>, flags: seq<bool>, secondary: bool, n: nat): (r: seq<real>)
    requires n <= |curves|
    ensures forall i, j | 0 <= i < n && OnAxis(curves, flags, secondary, i) && 0 <= j < |curves[i].values| ::
      curves[i].values[j] in r
    ensures forall x | x in r :: exists i | 0 <= i < n :: OnAxis(curves, flags, secondary, i) && x in curves[i].values
  {
    if n == 0 then []
    else
      var rest := AxisValues(curves, flags, secondary, n - 1);
      if OnAxis(curves, flags, secondary, n - 1) then rest + curves[n - 1].values else rest
  }

  /** The x-extent fitted to the sample times: 5 % of the span on each side,
      or 0.001 on each side when every time is the same. */
  function FitX(ts: seq<real>): (r: Range)
    requires |ts| > 0
    ensures r.lo < r.hi
    ensures forall i | 0 <= i < |ts| :: r.Frames(ts[i])
    ensures r.lo + r.hi == Min(ts) + Max(ts)
    ensures r.hi - r.lo == if Max(ts) > Min(ts) then (Max(ts) - Min(ts)) * 1.1 else 0.002
  {
    var tMin := Min(ts);
    var tMax := Max(ts);
    var span := tMax - tMin;
    assert forall i | 0 <= i < |ts| :: ts[i] in ts;
    if span > 0.0 then
      var margin := span * 0.05;
      var lo := tMin - margin;
      var hi := tMax + margin;
      if lo >= hi then Range(tMin - 0.001, tMax + 0.001) else Range(lo, hi)
    else Range(tMin - 0.001, tMax + 0.001)
  }

  /** The y-extent fitted to some values: 10 % of the span on each side;
      for a single repeated value `v`, 10 % of `|v|` on each side, or
      `[-1, 1]` when `v` is 0. */
  function FitY(vs: seq<real>): (r: Range)
    requires |vs| > 0
    ensures r.lo < r.hi
    ensures forall i | 0 <= i < |vs| :: r.Frames(vs[i])
    ensures r.lo + r.hi == Min(vs) + Max(vs)
    ensures Max(vs) > Min(vs) ==> r.hi - r.lo == (Max(vs) - Min(vs)) * 1.2
    ensures Max(vs) == Min(vs) == 0.0 ==> r == Range(-1.0, 1.0)
    ensures Max(vs) == Min(vs) != 0.0 ==> r.hi - r.lo == Abs(Min(vs)) * 0.2
  {
    var vMin := Min(vs);
    var vMax := Max(vs);
    var span := vMax - vMin;
    assert forall i | 0 <= i < |vs| :: vs[i] in vs;
    if span > 0.0 then
      var margin := span * 0.10;
      Range(vMin - margin, vMax + margin)
    else
      var lo := if vMin != 0.0 then vMin - Abs(vMin) * 0.1 else -1.0;
      var hi := if vMax != 0.0 then vMax + Abs(vMax) * 0.1 else 1.0;
      Range(lo, hi)
  }

  function Abs(x: real): (r: real)
    ensures r >= 0.0 && (r == x || r == -x)
  {
    if x < 0.0 then -x else x
  }

  /** What `auto_calibrate_plot` can run on: `np.concatenate` of the
      non-empty time arrays fails when a view has curves but no samples. */
  predicate CanAutoCalibrate(v: View)
  {
    |v.curves| == 0 || HasSamples(v.curves)
  }

  /** `auto_calibrate_plot`: the displayed extents become previous, then
      the extents are fitted to the data. Hidden curves still count for x;
      y counts only shown curves of the main axis; with no such values y
      falls back to the initial extent. The second component is the range
      given to the secondary axis, if there is one and it has shown values. */
  function AutoCalibrate(v: View): (r: (View, Option<Range>))
    requires CanAutoCalibrate(v)
    ensures r.0 == v.(previous := v.current, current := r.0.current)
    ensures |v.curves| == 0 ==> r.0.current == v.initial && r.1.None?
    ensures |v.curves| > 0 ==>
      && r.0.current.x.lo < r.0.current.x.hi
      && (forall i, j | 0 <= i < |v.curves| && 0 <= j < |v.curves[i].time| ::
            r.0.current.x.Frames(v.curves[i].time[j]))
    ensures |v.curves| > 0 ==>
      forall i, j | 0 <= i < |v.curves| && OnAxis(v.curves, v.visible, false, i) && 0 <= j < |v.curves[i].values| ::
        r.0.current.y.Frames(v.curves[i].values[j])
    ensures |v.curves| > 0 && |AxisValues(v.curves, v.visible, false, |v.curves|)| > 0 ==>
      r.0.current.y.lo < r.0.current.y.hi
    ensures |v.curves| > 0 && |AxisValues(v.curves, v.visible, false, |v.curves|)| == 0 ==>
      r.0.current.y == v.initial.y
    ensures r.1.Some? ==>
      && v.secondaryAxis
      && r.1.value.lo < r.1.value.hi
      && (forall i, j | 0 <= i < |v.curves| && OnAxis(v.curves, v.visible, true, i) && 0 <= j < |v.curves[i].values| ::
            r.1.value.Frames(v.curves[i].values[j]))
    ensures r.1.None? && |v.curves| > 0 ==>
      !v.secondaryAxis || |AxisValues(v.curves, v.visible, true, |v.curves|)| == 0
    ensures |v.curves| > 0 ==> r.0.current.x == FitX(AllTimes(v.curves))
    ensures |v.curves| > 0 && |AxisValues(v.curves, v.visible, false, |v.curves|)| > 0 ==>
      r.0.current.y == FitY(AxisValues(v.curves, v.visible, false, |v.curves|))
    ensures |v.curves| > 0 && v.secondaryAxis && |AxisValues(v.curves, v.visible, true, |v.curves|)| > 0 ==>
      r.1 == Some(FitY(AxisValues(v.curves, v.visible, true, |v.curves|)))
  {
    if |v.curves| == 0 then (v.(previous := v.current, current := v.initial), None)
    else
      var x := FitX(AllTimes(v.curves));
      var main := AxisValues(v.curves, v.visible, false, |v.curves|);
      var y := if |main| > 0 then FitY(main) else v.initial.y;
      var sec := if v.secondaryAxis then AxisValues(v.curves, v.visible, true, |v.curves|) else [];
      var s := if |sec| > 0 then Some(FitY(sec)) else None;
      (v.(previous := v.current, current := Extents(x, y)), s)
  }

  /** `de_calibrate_plot`: go back to the previous extents, or to the initial
      ones when previous is the initial extents; previous becomes initial.
      When both previous and current are already initial nothing changes and
      the second component reports the "already at initial limits" notice. */
  function DeCalibrate(v: View): (r: (View, bool))
    ensures r.1 <==> v.previous == v.initial && v.current == v.initial
    ensures r.1 ==> r.0 == v
    ensures !r.1 ==> r.0 == v.(previous := v.initial, current := r.0.current)
    ensures !r.1 && v.previous != v.initial ==> r.0.current == v.previous
    ensures !r.1 && v.previous == v.initial ==> r.0.current == v.initial
  {
    if v.previous == v.initial then
      if v.current == v.initial then (v, true)
      else (v.(current := v.initial, previous := v.initial), false)
    else (v.(current := v.previous, previous := v.initial), false)
  }

  /** Two consecutive de-calibrations always end at the initial extents. */
  lemma DeCalibrateTwice(v: View)
    ensures DeCalibrate(DeCalibrate(v).0).0.current == v.initial
    ensures DeCalibrate(DeCalibrate(v).0).0.previous == v.initial
  {
  }

  /** ... but the second one is not a no-op: whenever previous held other
      extents, the first call shows them and the second moves on to initial. */
  lemma DeCalibrateSecondMoves(v: View)
    requires v.previous != v.initial
    ensures !DeCalibrate(DeCalibrate(v).0).1
    ensures DeCalibrate(DeCalibrate(v).0).0 != DeCalibrate(v).0
  {
    var w := DeCalibrate(v).0;
    assert w.current == v.previous;
    assert DeCalibrate(w).0.current == v.initial;
  }

  /** De-calibrating right after an auto-calibration brings back the extents
      shown before it. */
  lemma AutoThenDeCalibrate(v: View)
    requires CanAutoCalibrate(v)
    ensures DeCalibrate(AutoCalibrate(v).0).0.current == v.current
  {
  }
}

=== FILE: curves.dfy ===
/** The records a plot view is made of: a curve (the program's
    `(time, values, name, is_raw)` tuple), an axis range and the pair of
    x/y ranges a view displays. */
module Curves {

  /** A colour chosen by the user, as the hex string the colour chooser returns. */
  type Color = string

  /** A named time series; `isRaw` is true for acquired or imported samples
      and false for derived, computed or fitted ones. */
  datatype Curve = Curve(time: seq<real>, values: seq<real>, name: string, isRaw: bool) {

    /** Every time sample has its value. */
    predicate WellFormed()
    {
      |time| == |values|
    }
  }

  /** An axis range `(lo, hi)` as matplotlib's `get_xlim()`/`get_ylim()` return it. */
  datatype Range = Range(lo: real, hi: real) {

    /** `x` lies strictly inside the range. */
    predicate Frames(x: real)
    {
      lo < x < hi
    }
  }

  /** The x and y ranges of a view's main axes. */
  datatype Extents = Extents(x: Range, y: Range)
}

=== FILE: curveset.dfy ===
/** The state of one plot view and the list operations on it: the curves,
    the per-curve visibility flags and colours the program keeps in parallel
    lists, the trash of removed curves, the reticule's active curve and the
    three extents (initial, previous, current) the calibration commands
    move between. */
module CurveSet {
  import opened Wrappers
  import opened Text
  import opened Curves
  import opened Names

  datatype View = View(
    curves: seq<Curve>,
    visible: seq<bool>,
    colors: seq<Option<Color>>,
    trash: seq<Curve>,
    active: nat,
    initial: Extents,
    previous: Extents,
    current: Extents,
    secondaryAxis: bool)
  {
    /** The flag and colour lists have one entry per curve. */
    predicate Aligned()
    {
      |visible| == |curves| && |colors| == |curves|
    }
  }

  datatype CurveError = IndexOutOfRange

  /** `xs` cut or padded with `d` to exactly `n` entries. */
  function Pad<T>(xs: seq<T>, n: nat, d: T): (r: seq<T>)
    ensures |r| == n
    ensures forall i | 0 <= i < n && i < |xs| :: r[i] == xs[i]
    ensures forall i | |xs| <= i < n :: r[i] == d
  {
    if |xs| >= n then xs[..n] else xs + seq(n - |xs|, _ => d)
  }

  /** Padding to the length a list already has changes nothing, so padding
      twice is padding once. */
  lemma PadIdempotent<T>(xs: seq<T>, n: nat, d: T)
    ensures Pad(Pad(xs, n, d), n, d) == Pad(xs, n, d)
    ensures |xs| == n ==> Pad(xs, n, d) == xs
  {
  }

  /** `_sync_visible_flags`: one flag per curve, new curves visible. */
  function SyncVisible(v: View): (r: View)
    ensures |r.visible| == |v.curves|
    ensures forall i | 0 <= i < |v.curves| && i < |v.visible| :: r.visible[i] == v.visible[i]
    ensures forall i | |v.visible| <= i < |v.curves| :: r.visible[i]
    ensures r == v.(visible := r.visible)
  {
    v.(visible := Pad(v.visible, |v.curves|, true))
  }

  /** `_sync_curve_colors`: one colour slot per curve, new slots default. */
  function SyncColors(v: View): (r: View)
    ensures |r.colors| == |v.curves|
    ensures forall i | 0 <= i < |v.curves| && i < |v.colors| :: r.colors[i] == v.colors[i]
    ensures forall i | |v.colors| <= i < |v.curves| :: r.colors[i] == None
    ensures r == v.(colors := r.colors)
  {
    v.(colors := Pad(v.colors, |v.curves|, None))
  }

  /** The bookkeeping part of `plot_mode_unique`: both lists synced, the
      displayed extents saved as previous unless they are the initial ones,
      the displayed extents kept, and a secondary axis exactly when some
      curve belongs on it. */
  function Render(v: View): (r: View)
    ensures r.Aligned()
    ensures r.curves == v.curves && r.trash == v.trash && r.active == v.active
    ensures r.initial == v.initial && r.current == v.current
    ensures r.previous == if v.current != v.initial then v.current else v.previous
    ensures r.secondaryAxis <==> exists i: nat | i < |v.curves| :: IsSecondary(v.curves, i)
  {
    var s := SyncColors(SyncVisible(v));
    var ind := SecondaryIndices(v.curves);
    assert (exists i: nat | i < |v.curves| :: IsSecondary(v.curves, i)) ==> ind != {};
    s.(previous := if v.current != v.initial then v.current else v.previous,
       secondaryAxis := ind != {})
  }

  /** Rendering keeps the flag and colour of every curve that had one. */
  lemma RenderKeepsSlots(v: View)
    ensures forall i | 0 <= i < |v.curves| && i < |v.visible| :: Render(v).visible[i] == v.visible[i]
    ensures forall i | 0 <= i < |v.curves| && i < |v.colors| :: Render(v).colors[i] == v.colors[i]
  {
    var sv := SyncVisible(v);
    assert SyncColors(sv).visible == sv.visible && sv.colors == v.colors;
  }

  /** Rendering an aligned view leaves its flags and colours alone. */
  lemma RenderKeepsAligned(v: View)
    requires v.Aligned()
    ensures Render(v).visible == v.visible && Render(v).colors == v.colors
  {
    PadIdempotent(v.visible, |v.curves|, true);
    PadIdempotent(v.colors, |v.curves|, None);
  }

  /** `list.pop(i)` for an index in range. */
  function RemoveAt<T>(s: seq<T>, i: nat): (r: seq<T>)
    requires i < |s|
    ensures |r| == |s| - 1
    ensures forall j | 0 <= j < i :: r[j] == s[j]
    ensures forall j | i <= j < |r| :: r[j] == s[j + 1]
    ensures multiset(r) + multiset{s[i]} == multiset(s)
  {
    assert s == s[..i] + [s[i]] + s[i + 1..];
    s[..i] + s[i + 1..]
  }

  /** `remove_curve`: the curve leaves the view for the end of the trash,
      its flag and colour leave with it, an active index that falls off the
      end resets to 0, and the view is rendered again. An index past the
      end is the `IndexError` the program reports. */
  function RemoveCurve(v: View, idx: nat): (r: Result<View, CurveError>)
    ensures r.Failure? <==> idx >= |v.curves|
    ensures r.Success? ==>
      && r.value.Aligned()
      && r.value.curves == RemoveAt(v.curves, idx)
      && r.value.trash == v.trash + [v.curves[idx]]
      && multiset(r.value.curves) + multiset(r.value.trash) == multiset(v.curves) + multiset(v.trash)
      && r.value.active == (if v.active < |v.curves| - 1 then v.active else 0)
      && r.value.initial == v.initial && r.value.current == v.current
      && r.value.previous == (if v.current != v.initial then v.current else v.previous)
      && (r.value.secondaryAxis <==> exists i: nat | i < |r.value.curves| :: IsSecondary(r.value.curves, i))
  {
    if idx >= |v.curves| then Failure(IndexOutOfRange)
    else
      var flags := if idx < |v.visible| then RemoveAt(v.visible, idx) else v.visible;
      var colors := if idx < |v.colors| then RemoveAt(v.colors, idx) else v.colors;
      var curves := RemoveAt(v.curves, idx);
      var active := if v.active >= |curves| then 0 else v.active;
      Success(Render(v.(curves := curves, visible := flags, colors := colors,
                        trash := v.trash + [v.curves[idx]], active := active)))
  }

  /** In an aligned view the removed curve's flag and colour are the ones
      dropped: every later curve keeps its own. */
  lemma RemoveCurveDropsItsSlots(v: View, idx: nat)
    requires v.Aligned() && idx < |v.curves|
    ensures RemoveCurve(v, idx).Success?
    ensures RemoveCurve(v, idx).value.visible == RemoveAt(v.visible, idx)
    ensures RemoveCurve(v, idx).value.colors == RemoveAt(v.colors, idx)
  {
    var w := v.(curves := RemoveAt(v.curves, idx), visible := RemoveAt(v.visible, idx),
                colors := RemoveAt(v.colors, idx), trash := v.trash + [v.curves[idx]],
                active := if v.active >= |v.curves| - 1 then 0 else v.active);
    RenderKeepsAligned(w);
  }

  /** `restore_curve`: with an empty trash or an index out of range nothing
      changes; otherwise the chosen curve leaves the trash and is appended
      after the others, and the view is synced and rendered. */
  function RestoreCurve(v: View, k: int): (r: View)
    ensures (|v.trash| == 0 || k < 0 || k >= |v.trash|) ==> r == v
    ensures 0 <= k < |v.trash| ==>
      && r.Aligned()
      && r.curves == v.curves + [v.trash[k]]
      && r.trash == RemoveAt(v.trash, k)
      && multiset(r.curves) + multiset(r.trash) == multiset(v.curves) + multiset(v.trash)
      && r.active == v.active && r.initial == v.initial && r.current == v.current
      && r.previous == (if v.current != v.initial then v.current else v.previous)
      && (r.secondaryAxis <==> exists i: nat | i < |r.curves| :: IsSecondary(r.curves, i))
  {
    if |v.trash| == 0 || k < 0 || k >= |v.trash| then v
    else
      var w := v.(trash := RemoveAt(v.trash, k), curves := v.curves + [v.trash[k]]);
      Render(SyncColors(SyncVisible(w)))
  }

  /** A curve restored into an aligned view comes back visible, with the
      default colour, and every other curve keeps its flag and colour. */
  lemma RestoreCurveVisible(v: View, k: nat)
    requires v.Aligned() && k < |v.trash|
    ensures RestoreCurve(v, k).visible == v.visible + [true]
    ensures RestoreCurve(v, k).colors == v.colors + [None]
  {
    var w := v.(trash := RemoveAt(v.trash, k), curves := v.curves + [v.trash[k]]);
    var s := SyncColors(SyncVisible(w));
    RenderKeepsAligned(s);
    assert s.visible == v.visible + [true];
    assert s.colors == v.colors + [None];
  }

  /** Removing a curve and restoring it brings it back at the end of the
      list, not at its old position; the trash is as it was. */
  lemma RemoveThenRestore(v: View, idx: nat)
    requires idx < |v.curves|
    ensures RemoveCurve(v, idx).Success?
    ensures var w := RemoveCurve(v, idx).value;
            var r := RestoreCurve(w, |w.trash| - 1);
            && r.curves == RemoveAt(v.curves, idx) + [v.curves[idx]]
            && r.trash == v.trash
            && multiset(r.curves) == multiset(v.curves)
  {
    var w := RemoveCurve(v, idx).value;
    assert RemoveAt(w.trash, |w.trash| - 1) == v.trash;
  }

  /** `Reticule.set_active_curve`: accepts exactly the indices of existing
      curves and reports whether it did. */
  function SetActiveCurve(v: View, index: int): (r: (bool, View))
    ensures r.0 <==> 0 <= index < |v.curves|
    ensures r.0 ==> r.1 == v.(active := index)
    ensures !r.0 ==> r.1 == v
  {
    if 0 <= index < |v.curves| then (true, v.(active := index)) else (false, v)
  }

  /** An active index that `set_active_curve` accepted stays in range when
      a curve is removed afterwards, through `remove_curve`'s reset to 0. */
  lemma ActiveStaysInRange(v: View, index: int, idx: nat)
    requires SetActiveCurve(v, index).0 && idx < |v.curves| && |v.curves| >= 2
    ensures RemoveCurve(SetActiveCurve(v, index).1, idx).Success?
    ensures RemoveCurve(SetActiveCurve(v, index).1, idx).value.active < |v.curves| - 1
  {
  }

  /** The state change of `rename_curve_dialog`: a non-blank answer renames
      the chosen curve to the answer stripped of surrounding white space and
      redraws; a cancelled or blank answer changes nothing. */
  function RenameCurve(v: View, idx: nat, answer: Option<string>): (r: View)
    requires idx < |v.curves|
    ensures answer.None? || |Strip(answer.value)| == 0 ==> r == v
    ensures answer.Some? && |Strip(answer.value)| > 0 ==>
      && r.Aligned()
      && |r.curves| == |v.curves|
      && r.curves[idx].name == Strip(answer.value)
      && r.curves[idx].time == v.curves[idx].time
      && r.curves[idx].values == v.curves[idx].values
      && r.curves[idx].isRaw == v.curves[idx].isRaw
      && (forall j | 0 <= j < |v.curves| && j != idx :: r.curves[j] == v.curves[j])
    ensures answer.Some? && |Strip(answer.value)| > 0 ==>
      && r.trash == v.trash && r.active == v.active
      && r.initial == v.initial && r.current == v.current
      && r.previous == (if v.current != v.initial then v.current else v.previous)
      && (v.Aligned() ==> r.visible == v.visible && r.colors == v.colors)
      && (r.secondaryAxis <==> exists i: nat | i < |r.curves| :: IsSecondary(r.curves, i))
  {
    if answer.None? || |Strip(answer.value)| == 0 then v
    else
      var c := v.curves[idx];
      var w := v.(curves := v.curves[idx := c.(name := Strip(answer.value))]);
      assert v.Aligned() ==> Render(w).visible == v.visible && Render(w).colors == v.colors by {
        if v.Aligned() { RenderKeepsAligned(w); }
      }
      Render(w)
  }

  /** The state change of `recolor_curve_dialog`: a chosen colour is stored
      in the curve's slot of the synced colour list and the view redrawn; a
      cancelled dialog changes nothing. */
  function RecolorCurve(v: View, idx: nat, chosen: Option<Color>): (r: View)
    requires idx < |v.curves|
    ensures chosen.None? || |chosen.value| == 0 ==> r == v
    ensures chosen.Some? && |chosen.value| > 0 ==>
      && r.Aligned()
      && r.curves == v.curves
      && r.colors[idx] == Some(chosen.value)
      && (forall j | 0 <= j < |v.colors| && j < |v.curves| && j != idx :: r.colors[j] == v.colors[j])
      && (forall j | |v.colors| <= j < |v.curves| && j != idx :: r.colors[j] == None)
    ensures chosen.Some? && |chosen.value| > 0 ==>
      && r.trash == v.trash && r.active == v.active
      && r.initial == v.initial && r.current == v.current
      && r.previous == (if v.current != v.initial then v.current else v.previous)
      && (v.Aligned() ==> r.visible == v.visible)
      && (r.secondaryAxis <==> exists i: nat | i < |v.curves| :: IsSecondary(v.curves, i))
  {
    if chosen.None? || |chosen.value| == 0 then v
    else
      var s := SyncColors(v);
      var w := s.(colors := s.colors[idx := Some(chosen.value)]);
      assert v.Aligned() ==> Render(w).visible == v.visible by {
        if v.Aligned() { RenderKeepsAligned(w); }
      }
      Render(w)
  }
}

=== FILE: derivative.dfy ===
/** `calculer_derivee`: the forward-difference derivative of a curve,
    sampled at the midpoints of consecutive times. */
module Derivative {
  import opened Wrappers
  import opened Curves
  import opened Names
  import opened Differences

  /** The samples of the derivative of `(t, v)`: one per segment, at its
      midpoint, the slope of the segment; none for fewer than two samples. */
  function DeriveSamples(t: seq<real>, v: seq<real>): (r: Option<(seq<real>, seq<real>)>)
    requires |t| == |v| && DistinctSteps(t)
    ensures r.None? <==> |t| < 2
    ensures r.Some? ==>
      && |r.value.0| == |r.value.1| == |t| - 1
      && (forall i {:trigger r.value.0[i]} | 0 <= i < |r.value.0| :: t[i] + t[i + 1] == 2.0 * r.value.0[i])
      && (forall i {:trigger r.value.1[i]} | 0 <= i < |r.value.1| :: r.value.1[i] * (t[i + 1] - t[i]) == v[i + 1] - v[i])
  {
    if |t| < 2 then None else Some((Midpoints(t), Slopes(t, v)))
  }

  /** The derivative curve of `c`: the derivative samples, flagged as
      computed and named after `c`; nothing for a curve of fewer than two
      samples. */
  function Derive(c: Curve): (r: Option<Curve>)
    requires c.WellFormed() && DistinctSteps(c.time)
    ensures r.None? <==> |c.time| < 2
    ensures r.Some? ==>
      && r.value.WellFormed()
      && (r.value.time, r.value.values) == DeriveSamples(c.time, c.values).value
      && !r.value.isRaw
      && r.value.name == DerivativeName(c.name)
  {
    match DeriveSamples(c.time, c.values)
    case None => None
    case Some((t, v)) => Some(Curve(t, v, DerivativeName(c.name), false))
  }

  /** Every derivative time lies strictly inside its segment. */
  lemma DeriveInsideSegment(c: Curve, i: nat)
    requires c.WellFormed() && DistinctSteps(c.time) && i + 1 < |c.time|
    ensures var m := Derive(c).value.time[i];
      (c.time[i] < m < c.time[i + 1]) || (c.time[i + 1] < m < c.time[i])
  {
    var s := DeriveSamples(c.time, c.values).value;
    assert Derive(c).value.time == s.0;
    assert c.time[i] != c.time[i + 1];
  }

  /** Integrating the derivative from the first value gives back the curve:
      the forward differences lose nothing but the starting value. */
  lemma IntegrateDerivative(c: Curve)
    requires c.WellFormed() && DistinctSteps(c.time) && |c.time| >= 2
    ensures Integrate(c.values[0], Derive(c).value.values, c.time) == c.values
  {
    var s := DeriveSamples(c.time, c.values).value;
    assert Derive(c).value.values == s.1;
    IntegrateSlopes(c.time, c.values, s.1);
  }

  /** Samples of a straight line `a·t + b` have the constant derivative `a`. */
  lemma DeriveLine(c: Curve, a: real, b: real)
    requires c.WellFormed() && DistinctSteps(c.time) && |c.time| >= 2
    requires forall i | 0 <= i < |c.time| :: c.values[i] == a * c.time[i] + b
    ensures forall i | 0 <= i < |c.time| - 1 :: Derive(c).value.values[i] == a
  {
    var d := Derive(c).value;
    var s := DeriveSamples(c.time, c.values).value;
    assert d.values == s.1;
    forall i | 0 <= i < |c.time| - 1
      ensures d.values[i] == a
    {
      assert c.time[i] != c.time[i + 1];
      SlopeOfLine(d.values[i], c.time[i], c.time[i + 1], c.values[i], c.values[i + 1], a, b);
    }
  }

  lemma SlopeOfLine(x: real, t0: real, t1: real, v0: real, v1: real, a: real, b: real)
    requires t0 != t1 && x * (t1 - t0) == v1 - v0
    requires v0 == a * t0 + b && v1 == a * t1 + b
    ensures x == a
  {
    assert (x - a) * (t1 - t0) == 0.0;
  }

  /** Samples of `t²` at `t = 0, 1, 2, ...` have derivative `2i + 1` at
      `t = i + 0.5`: for `t = 0..4` the slopes `1, 3, 5, 7` at `0.5..3.5`. */
  lemma DeriveSquares(c: Curve)
    requires c.WellFormed() && |c.time| >= 2
    requires forall i | 0 <= i < |c.time| :: c.time[i] == i as real && c.values[i] == (i * i) as real
    ensures DistinctSteps(c.time)
    ensures forall i | 0 <= i < |c.time| - 1 ::
      Derive(c).value.time[i] == i as real + 0.5 && Derive(c).value.values[i] == (2 * i + 1) as real
  {
    SquaresSamples(c.time, c.values);
    var d := Derive(c).value;
    var s := DeriveSamples(c.time, c.values).value;
    assert d.time == s.0 && d.values == s.1;
  }

  lemma SquaresSamples(t: seq<real>, v: seq<real>)
    requires |t| == |v| >= 2
    requires forall i | 0 <= i < |t| :: t[i] == i as real && v[i] == (i * i) as real
    ensures DistinctSteps(t)
    ensures forall i | 0 <= i < |t| - 1 ::
      DeriveSamples(t, v).value.0[i] == i as real + 0.5 && DeriveSamples(t, v).value.1[i] == (2 * i + 1) as real
  {
    var s := DeriveSamples(t, v).value;
    forall i | 0 <= i < |t| - 1
      ensures s.0[i] == i as real + 0.5 && s.1[i] == (2 * i + 1) as real
    {
      assert t[i + 1] - t[i] == 1.0;
      assert v[i + 1] - v[i] == (2 * i + 1) as real;
      assert s.1[i] * 1.0 == (2 * i + 1) as real;
    }
  }
}

=== FILE: differences.dfy ===
/** Forward differences of a sampled signal and their inverse, running
    sums, over exact reals. */
module Differences {

  /** No two consecutive time samples coincide, so every difference quotient
      is a number. */
  predicate DistinctSteps(t: seq<real>)
  {
    forall i, j | 0 <= i < |t| && 0 <= j < |t| && j == i + 1 :: t[i] != t[j]
  }

  /** The slope of every segment of `(t, v)`. */
  function Slopes(t: seq<real>, v: seq<real>): (r: seq<real>)
    requires |t| == |v| >= 1 && DistinctSteps(t)
    ensures |r| == |t| - 1
    ensures forall i {:trigger r[i]} | 0 <= i < |r| :: r[i] * (t[i + 1] - t[i]) == v[i + 1] - v[i]
  {
    var r := seq(|t| - 1, i requires 0 <= i < |t| - 1 => (v[i + 1] - v[i]) / (t[i + 1] - t[i]));
    assert forall i {:trigger r[i]} | 0 <= i < |r| :: r[i] * (t[i + 1] - t[i]) == v[i + 1] - v[i] by {
      forall i | 0 <= i < |r|
        ensures r[i] * (t[i + 1] - t[i]) == v[i + 1] - v[i]
      {
        assert t[i] != t[i + 1];
        QuotientTimesDivisor(v[i + 1] - v[i], t[i + 1] - t[i]);
      }
    }
    r
  }

  lemma QuotientTimesDivisor(a: real, h: real)
    requires h != 0.0
    ensures (a / h) * h == a
  {
  }

  /** The midpoint of every segment of `t`. */
  function Midpoints(t: seq<real>): (r: seq<real>)
    requires |t| >= 1
    ensures |r| == |t| - 1
    ensures forall i {:trigger r[i]} | 0 <= i < |r| :: t[i] + t[i + 1] == 2.0 * r[i]
  {
    seq(|t| - 1, i requires 0 <= i < |t| - 1 => (t[i] + t[i + 1]) / 2.0)
  }

  /** The running sum of slope times step up to sample `k`, from `v0`. */
  function RunningSum(v0: real, slopes: seq<real>, t: seq<real>, k: nat): real
    requires |t| == |slopes| + 1 && k < |t|
  {
    if k == 0 then v0 else RunningSum(v0, slopes, t, k - 1) + slopes[k - 1] * (t[k] - t[k - 1])
  }

  /** Rebuilds samples from a start value and segment slopes. */
  function Integrate(v0: real, slopes: seq<real>, t: seq<real>): (r: seq<real>)
    requires |t| == |slopes| + 1
    ensures |r| == |t| && r[0] == v0
    ensures forall k | 1 <= k < |r| :: r[k] == r[k - 1] + slopes[k - 1] * (t[k] - t[k - 1])
  {
    seq(|t|, k requires 0 <= k < |t| => RunningSum(v0, slopes, t, k))
  }

  /** Each running sum from `v[0]` lands on `v[k]` when every slope matches
      its segment of `(t, v)`. */
  lemma {:induction false} RunningSumMatches(t: seq<real>, v: seq<real>, s: seq<real>, k: nat)
    requires |t| == |v| && |s| == |t| - 1 && k < |t|
    requires forall i {:trigger s[i]} | 0 <= i < |s| :: s[i] * (t[i + 1] - t[i]) == v[i + 1] - v[i]
    ensures RunningSum(v[0], s, t, k) == v[k]
  {
    if k > 0 {
      RunningSumMatches(t, v, s, k - 1);
      assert s[k - 1] * (t[k] - t[k - 1]) == v[k] - v[k - 1];
    }
  }

  /** Integrating slopes that match every segment of `(t, v)` from `v[0]`
      gives back `v`. */
  lemma IntegrateSlopes(t: seq<real>, v: seq<real>, s: seq<real>)
    requires |t| == |v| && |s| == |t| - 1 && |t| >= 1
    requires forall i {:trigger s[i]} | 0 <= i < |s| :: s[i] * (t[i + 1] - t[i]) == v[i + 1] - v[i]
    ensures Integrate(v[0], s, t) == v
  {
    forall k | 0 <= k < |t|
      ensures Integrate(v[0], s, t)[k] == v[k]
    {
      RunningSumMatches(t, v, s, k);
    }
  }
}

=== FILE: fit.dfy ===
/** What the four curve-fitting commands do around the solver: the starting
    guess of the exponential fit, the clamping of non-positive times in the
    power fit, the units shown for each parameter, the name of the model
    curve, and the model curve itself, evaluated at the fitting times. The
    fitted parameters are inputs; `exp`, `x ↦ x^n` and the number formats
    are passed in as functions. */
module Fit {
  import opened Wrappers
  import opened Text
  import opened Curves
  import opened Names

  /** The fitted parameters of each model. */
  datatype Params =
    | LinearParams(a: real)
    | AffineParams(a: real, b: real)
    | ExponentialParams(amplitude: real, tau: real, offset: real)
    | PowerParams(scale: real, n: real, offset: real)

  /** The starting guess `(A0, τ0, C0)` of the exponential fit: the drop from
      the first to the last value, a third of the last time (1 when that time
      is 0), and the last value. An empty curve has none: the program's
      `IndexError`, reported as a fitting error. */
  function ExponentialSeed(t: seq<real>, v: seq<real>): (r: Option<(real, real, real)>)
    requires |t| == |v|
    ensures r.None? <==> |t| == 0
    ensures r.Some? ==> r.value.1 != 0.0
    ensures r.Some? ==> r.value.0 + r.value.2 == v[0] && r.value.2 == v[|v| - 1]
    ensures r.Some? && t[|t| - 1] != 0.0 ==> 3.0 * r.value.1 == t[|t| - 1]
    ensures r.Some? && t[|t| - 1] == 0.0 ==> r.value.1 == 1.0
  {
    if |t| == 0 then None
    else
      var last := t[|t| - 1];
      var tau0 := if last != 0.0 then last / 3.0 else 1.0;
      Some((v[0] - v[|v| - 1], tau0, v[|v| - 1]))
  }

  /** The seeded exponential model `A0·exp(-x/τ0) + C0` passes through the
      first value at time 0. */
  lemma ExponentialSeedEndpoints(t: seq<real>, v: seq<real>, exp: real -> real)
    requires |t| == |v| > 0 && exp(0.0) == 1.0
    ensures var s := ExponentialSeed(t, v).value;
            Evaluate(ExponentialParams(s.0, s.1, s.2), exp, (b, e) => b, 0.0) == v[0]
  {
    var s := ExponentialSeed(t, v).value;
    assert -0.0 / s.1 == 0.0;
  }

  /** The value that replaces every non-positive time in the power fit. */
  const ClampedTime: real := 0.000001

  /** The times of the power fit: every `t <= 0` replaced by `1e-6`, every
      positive time kept. */
  function ClampTimes(t: seq<real>): (r: seq<real>)
    ensures |r| == |t|
    ensures forall i | 0 <= i < |t| :: r[i] > 0.0
    ensures forall i | 0 <= i < |t| && t[i] > 0.0 :: r[i] == t[i]
    ensures forall i | 0 <= i < |t| && t[i] <= 0.0 :: r[i] == ClampedTime
  {
    seq(|t|, i requires 0 <= i < |t| => if t[i] <= 0.0 then ClampedTime else t[i])
  }

  /** Clamping is idempotent, and the identity on strictly positive times. */
  lemma ClampTimesIdempotent(t: seq<real>)
    ensures ClampTimes(ClampTimes(t)) == ClampTimes(t)
    ensures (forall i | 0 <= i < |t| :: t[i] > 0.0) ==> ClampTimes(t) == t
  {
  }

  /** The guard `f_puissance` puts under the power: `max(1e-9, x)`. */
  function PowerBase(x: real): (r: real)
    ensures r > 0.0 && r >= x
    ensures x >= 0.000000001 ==> r == x
  {
    if x < 0.000000001 then 0.000000001 else x
  }

  /** The model function of each fit at `x`: `a·x`, `a·x + b`,
      `A·exp(-x/τ) + C` and `A·max(1e-9, x)^n + B`. */
  function Evaluate(p: Params, exp: real -> real, pow: (real, real) -> real, x: real): (r: real)
    requires p.ExponentialParams? ==> p.tau != 0.0
    ensures p.LinearParams? && x == 0.0 ==> r == 0.0
    ensures p.AffineParams? && x == 0.0 ==> r == p.b
    ensures p.ExponentialParams? && x == 0.0 && exp(0.0) == 1.0 ==> r == p.amplitude + p.offset
    ensures p.PowerParams? && p.scale == 0.0 ==> r == p.offset
  {
    match p
    case LinearParams(a) => a * x
    case AffineParams(a, b) => a * x + b
    case ExponentialParams(amp, tau, c) => amp * exp(-x / tau) + c
    case PowerParams(scale, n, b) => scale * pow(PowerBase(x), n) + b
  }

  /** The linear and affine models change by `a` per unit of time: `a` is
      their slope. */
  lemma ModelSlope(p: Params, exp: real -> real, pow: (real, real) -> real, x0: real, x1: real)
    requires p.LinearParams? || p.AffineParams?
    ensures Evaluate(p, exp, pow, x1) - Evaluate(p, exp, pow, x0) == p.a * (x1 - x0)
  {
    assert p.a * x1 - p.a * x0 == p.a * (x1 - x0);
  }

  /** The times a fit is evaluated at: the curve's own times, clamped for
      the power fit. */
  function FitTimes(p: Params, t: seq<real>): (r: seq<real>)
    ensures |r| == |t|
    ensures !p.PowerParams? ==> r == t
    ensures p.PowerParams? ==> r == ClampTimes(t)
  {
    if p.PowerParams? then ClampTimes(t) else t
  }

  /** The model curve a fit appends: the model evaluated at every fitting
      time, named by the caller, flagged as computed. */
  function ModelCurve(c: Curve, p: Params, exp: real -> real, pow: (real, real) -> real, name: string): (r: Curve)
    requires p.ExponentialParams? ==> p.tau != 0.0
    ensures r.WellFormed() && |r.time| == |c.time|
    ensures r.time == FitTimes(p, c.time)
    ensures forall i | 0 <= i < |r.time| :: r.values[i] == Evaluate(p, exp, pow, r.time[i])
    ensures r.name == name && !r.isRaw
  {
    var ts := FitTimes(p, c.time);
    Curve(ts, seq(|ts|, i requires 0 <= i < |ts| => Evaluate(p, exp, pow, ts[i])), name, false)
  }

  /** A power-model curve has only positive times, and the `max(1e-9, ·)`
      guard leaves every time at or above `1e-6` untouched. */
  lemma PowerCurvePositive(c: Curve, p: Params, exp: real -> real, pow: (real, real) -> real, name: string)
    requires p.PowerParams?
    ensures var r := ModelCurve(c, p, exp, pow, name);
            forall i | 0 <= i < |r.time| :: r.time[i] > 0.0 && (r.time[i] >= ClampedTime ==> PowerBase(r.time[i]) == r.time[i])
  {
  }

  /** The name each fit gives its model curve; `sci` is the program's `.2e`
      format and `fixed` its `.2f` format. */
  function ModelName(p: Params, sci: real -> string, fixed: real -> string, base: string): (r: string)
    ensures p.LinearParams? ==> "Modèle Linéaire (y=" <= r && |base| <= |r| && r[|r| - |base|..] == base
    ensures p.AffineParams? ==> "Modèle Affine (y=" <= r && r[|r| - 1] == ')'
    ensures p.ExponentialParams? ==> "Modèle Exp. (A=" <= r && r[|r| - 1] == ')'
    ensures p.PowerParams? ==> "Modèle Puissance (y=" <= r && r[|r| - 1] == ')'
  {
    match p
    case LinearParams(a) =>
      var pre := "Modèle Linéaire (y=" + sci(a) + "x) de ";
      assert (pre + base)[|pre|..] == base;
      pre + base
    case AffineParams(a, b) => "Modèle Affine (y=" + sci(a) + "x + " + sci(b) + ")"
    case ExponentialParams(amp, tau, _) => "Modèle Exp. (A=" + sci(amp) + ", τ=" + sci(tau) + ")"
    case PowerParams(scale, n, b) => "Modèle Puissance (y=" + sci(scale) + "x^" + fixed(n) + " + " + sci(b) + ")"
  }

  /** The linear model's name ends in the base curve's name, so it carries
      the base curve's unit. */
  lemma LinearModelKeepsUnit(a: real, sci: real -> string, fixed: real -> string, m: string, u: string)
    requires PlainUnit(u) && '(' !in sci(a) && ')' !in sci(a)
    ensures ExtractUnit(ModelName(LinearParams(a), sci, fixed, m + "(" + u + ")")) == Some(u)
  {
    var pre := "Modèle Linéaire (y=" + sci(a) + "x) de ";
    assert ModelName(LinearParams(a), sci, fixed, m + "(" + u + ")") == pre + (m + "(" + u + ")");
    ExtractUnitOf(pre, m, u);
  }

  /** The affine model's name ends in its parenthesised equation, which the
      unit parser reads as a unit. */
  lemma AffineModelUnit(a: real, b: real, sci: real -> string, fixed: real -> string, base: string)
    requires '(' !in sci(a) + sci(b) && ')' !in sci(a) + sci(b)
    requires |sci(b)| > 0 && !IsSpace(sci(b)[|sci(b)| - 1])
    ensures ExtractUnit(ModelName(AffineParams(a, b), sci, fixed, base)) == Some("y=" + sci(a) + "x + " + sci(b))
  {
    var u := "y=" + sci(a) + "x + " + sci(b);
    assert ModelName(AffineParams(a, b), sci, fixed, base) == "Modèle Affine " + ("" + "(" + u + ")");
    assert u[0] == 'y' && u[|u| - 1] == sci(b)[|sci(b)| - 1];
    assert forall c | c in u :: c in "y=x + " || c in sci(a) + sci(b);
    ExtractUnitOf("Modèle Affine ", "", u);
  }

  /** The affine equation `y=<a>x + <b>` holds an `=`. */
  lemma EquationHasEquals(x: string, y: string)
    ensures '=' in "y=" + x + "x + " + y
  {
    assert ("y=" + x + "x + " + y)[1] == '=';
  }

  /** Consequently an affine model curve placed after a first curve with an
      ordinary unit (one without `=`) is drawn on the secondary axis. */
  lemma AffineModelIsSecondary(curves: seq<Curve>, i: nat, a: real, b: real, sci: real -> string, fixed: real -> string, base: string)
    requires 0 < i < |curves|
    requires curves[i].name == ModelName(AffineParams(a, b), sci, fixed, base)
    requires '(' !in sci(a) + sci(b) && ')' !in sci(a) + sci(b)
    requires |sci(b)| > 0 && !IsSpace(sci(b)[|sci(b)| - 1])
    requires ExtractUnit(curves[0].name).Some? && |ExtractUnit(curves[0].name).value| > 0
    requires '=' !in ExtractUnit(curves[0].name).value
    ensures IsSecondary(curves, i)
  {
    var u := "y=" + sci(a) + "x + " + sci(b);
    assert ExtractUnit(curves[i].name) == Some(u) by {
      AffineModelUnit(a, b, sci, fixed, base);
    }
    assert |u| > 0 && u != ExtractUnit(curves[0].name).value by {
      EquationHasEquals(sci(a), sci(b));
    }
    ClashIsSecondary(curves, i, u);
  }

  /** The unit shown next to each fitted parameter, from the base curve's
      y-unit and the time unit; `fixed` formats the power exponent. */
  function ParameterUnits(p: Params, base: string, fixed: real -> string): (r: seq<string>)
    ensures |r| == match p
      case LinearParams(_) => 1
      case AffineParams(_, _) => 2
      case _ => 3
    ensures p.LinearParams? ==> r == [UnitsForModel(base).0 + "/" + TimeUnit]
    ensures p.AffineParams? ==> r == [UnitsForModel(base).0 + "/" + TimeUnit, UnitsForModel(base).0]
    ensures p.ExponentialParams? ==> r == [UnitsForModel(base).0, TimeUnit, UnitsForModel(base).0]
    ensures p.PowerParams? ==>
      && r[0] == (if p.n != 0.0 then UnitsForModel(base).0 + "/(" + TimeUnit + "^" + fixed(p.n) + ")" else UnitsForModel(base).0)
      && r[1] == "sans unité"
      && r[2] == UnitsForModel(base).0
  {
    var uy := UnitsForModel(base).0;
    var ux := UnitsForModel(base).1;
    match p
    case LinearParams(_) => [uy + "/" + ux]
    case AffineParams(_, _) => [uy + "/" + ux, uy]
    case ExponentialParams(_, _, _) => [uy, ux, uy]
    case PowerParams(_, n, _) => [if n != 0.0 then uy + "/(" + ux + "^" + fixed(n) + ")" else uy, "sans unité", uy]
  }

  /** The slope of a linear or affine fit has the unit of the derivative of
      the same curve. */
  lemma SlopeUnitIsDerivativeUnit(p: Params, base: string, fixed: real -> string)
    requires p.LinearParams? || p.AffineParams?
    ensures Some(ParameterUnits(p, base, fixed)[0]) == ExtractUnit(DerivativeName(base))
  {
    var uy := UnitsForModel(base).0;
    assert ParameterUnits(p, base, fixed)[0] == uy + "/" + TimeUnit;
    assert uy + "/" + TimeUnit == uy + "/s";
    DerivativeUnitRoundTrip(base);
  }
}

=== FILE: measure.dfy ===
/** The measurement engine: peak and mean-crossing detection, the period
    estimate with median-based outlier rejection, time windowing and the
    measurement record of one curve. */
module Measure {
  import opened Wrappers
  import opened Curves
  import opened Stats

  /** Sample `i` is an interior strict local maximum at or above `threshold`. */
  predicate IsPeak(v: seq<real>, threshold: real, i: nat)
  {
    0 < i < |v| - 1 && v[i] > v[i - 1] && v[i] > v[i + 1] && v[i] >= threshold
  }

  /** The signal passes `level` going up between samples `i` and `i + 1`. */
  predicate IsUpCrossing(v: seq<real>, level: real, i: nat)
  {
    i + 1 < |v| && v[i] < level <= v[i + 1]
  }

  /** The time at which the segment from `(t0, v0)` to `(t1, v1)` reaches
      `level`, with the program's fallback to `t0` for a flat segment. */
  function CrossingTime(t0: real, t1: real, v0: real, v1: real, level: real): (r: real)
    ensures v1 != v0 ==> (r - t0) * (v1 - v0) == (level - v0) * (t1 - t0)
    ensures v0 < level <= v1 && t0 < t1 ==> t0 < r <= t1
  {
    if v1 - v0 == 0.0 then t0
    else
      var r := t0 + (level - v0) / (v1 - v0) * (t1 - t0);
      CrossingFacts(t0, t1, v0, v1, level, r);
      r
  }

  /** The interpolated crossing time meets the level on the line through the
      two samples, and lies inside a rising segment that reaches the level. */
  lemma CrossingFacts(t0: real, t1: real, v0: real, v1: real, level: real, r: real)
    requires v1 - v0 != 0.0 && r == t0 + (level - v0) / (v1 - v0) * (t1 - t0)
    ensures (r - t0) * (v1 - v0) == (level - v0) * (t1 - t0)
    ensures v0 < level <= v1 && t0 < t1 ==> t0 < r <= t1
  {
    var dv := v1 - v0;
    var frac := (level - v0) / dv;
    assert frac * dv == level - v0;
    ScaledProduct(frac, dv, t1 - t0, level - v0);
    if v0 < level <= v1 && t0 < t1 {
      FractionInUnit(level - v0, dv);
      StepWithin(t0, t1, frac);
    }
  }

  lemma ScaledProduct(f: real, g: real, d: real, a: real)
    requires f * g == a
    ensures (f * d) * g == a * d
  {
    assert (f * d) * g == (f * g) * d;
  }

  lemma FractionInUnit(a: real, b: real)
    ensures 0.0 < a <= b ==> 0.0 < a / b <= 1.0
  {
    if 0.0 < a <= b {
      var q := a / b;
      assert q * b == a;
    }
  }

  lemma StepWithin(t0: real, t1: real, f: real)
    ensures t0 < t1 && 0.0 < f <= 1.0 ==> t0 < t0 + f * (t1 - t0) <= t1
  {
    if t0 < t1 && 0.0 < f <= 1.0 {
      var d := t1 - t0;
      NonPositiveProduct(f - 1.0, d);
      assert f * d - d == (f - 1.0) * d;
    }
  }

  lemma NonPositiveProduct(a: real, b: real)
    requires a <= 0.0 && b >= 0.0
    ensures a * b <= 0.0
  {
  }

  /** At an upward crossing the signal strictly rises, so the flat-segment
      fallback of `CrossingTime` is never taken by the period estimator. */
  lemma UpCrossingRises(v: seq<real>, level: real, i: nat)
    requires IsUpCrossing(v, level, i)
    ensures v[i + 1] - v[i] > 0.0
  {
  }

  /** The indices of the local maxima at or above `threshold`, ascending. */
  function PeakIndices(v: seq<real>, threshold: real): (r: seq<nat>)
    ensures forall j | 0 <= j < |r| :: r[j] < |v| && IsPeak(v, threshold, r[j])
    ensures forall i: nat | i < |v| && IsPeak(v, threshold, i) :: i in r
    ensures forall j, k | 0 <= j < k < |r| :: r[j] < r[k]
  {
    IndicesWhere(|v|, (i: nat) => IsPeak(v, threshold, i))
  }

  /** The indices `i` where the signal crosses `level` upwards between
      samples `i` and `i + 1`, ascending. */
  function CrossingIndices(v: seq<real>, level: real): (r: seq<nat>)
    ensures forall j | 0 <= j < |r| :: r[j] + 1 < |v| && IsUpCrossing(v, level, r[j])
    ensures forall i: nat | IsUpCrossing(v, level, i) :: i in r
    ensures forall j, k | 0 <= j < k < |r| :: r[j] < r[k]
  {
    IndicesWhere(|v|, (i: nat) => IsUpCrossing(v, level, i))
  }

  /** The times of the detected local maxima, in increasing index order. */
  function PeakTimes(t: seq<real>, v: seq<real>, threshold: real): (r: seq<real>)
    requires |t| == |v|
    ensures |r| == |PeakIndices(v, threshold)|
    ensures forall j | 0 <= j < |r| :: r[j] == t[PeakIndices(v, threshold)[j]]
  {
    var idx := PeakIndices(v, threshold);
    seq(|idx|, j requires 0 <= j < |idx| => t[idx[j]])
  }

  /** The interpolated times of the upward crossings of `level`, in
      increasing index order. */
  function CrossingTimes(t: seq<real>, v: seq<real>, level: real): (r: seq<real>)
    requires |t| == |v|
    ensures |r| == |CrossingIndices(v, level)|
    ensures forall j | 0 <= j < |r| ::
      var i := CrossingIndices(v, level)[j];
      r[j] == CrossingTime(t[i], t[i + 1], v[i], v[i + 1], level)
  {
    var idx := CrossingIndices(v, level);
    seq(|idx|, j requires 0 <= j < |idx| =>
      CrossingTime(t[idx[j]], t[idx[j] + 1], v[idx[j]], v[idx[j] + 1], level))
  }

  /** The peak threshold: a fifth of the way up from the minimum to the
      maximum, so four times closer to the minimum. */
  function Threshold(v: seq<real>): (r: real)
    requires |v| > 0
    ensures Min(v) <= r <= Max(v)
    ensures Max(v) > Min(v) ==> Min(v) < r < Max(v)
    ensures 4.0 * (r - Min(v)) == Max(v) - r
  {
    ExtremesBound(v);
    Min(v) + 0.2 * (Max(v) - Min(v))
  }

  /** The events whose spacing gives the period: the peaks when there are
      at least two, else the mean crossings; in time order when the samples
      are. */
  function EventTimes(t: seq<real>, v: seq<real>): (r: seq<real>)
    requires |t| == |v| && |v| > 0
    ensures |PeakTimes(t, v, Threshold(v))| >= 2 ==> r == PeakTimes(t, v, Threshold(v))
    ensures |PeakTimes(t, v, Threshold(v))| < 2 ==> r == CrossingTimes(t, v, Mean(v))
    ensures StrictlyIncreasing(t) ==> StrictlyIncreasing(r)
  {
    var p := PeakTimes(t, v, Threshold(v));
    assert StrictlyIncreasing(t) ==> StrictlyIncreasing(p) && StrictlyIncreasing(CrossingTimes(t, v, Mean(v))) by {
      if StrictlyIncreasing(t) {
        PeakTimesIncreasing(t, v, Threshold(v));
        CrossingsIncreasing(t, v, Mean(v));
      }
    }
    if |p| >= 2 then p else CrossingTimes(t, v, Mean(v))
  }

  /** The period estimate: mean and spread of the event spacing, and the
      event times used. The spread is the population variance, the square
      of the program's standard deviation. */
  datatype PeriodEstimate = PeriodEstimate(mean: Option<real>, spread: Option<real>, times: seq<real>)

  const NoPeriod := PeriodEstimate(None, None, [])

  /** The spacings kept by the outlier rejection: those below ten medians,
      each as often as it occurs. A positive median keeps at least one
      spacing (the smallest is at most the median), so the "nothing kept"
      exit is never taken. */
  function KeptSpacings(d: seq<real>): (r: seq<real>)
    requires |d| > 0
    ensures forall x :: multiset(r)[x] == (if x < 10.0 * Median(d) then multiset(d)[x] else 0)
    ensures forall i | 0 <= i < |r| :: r[i] < 10.0 * Median(d) && r[i] in d
    ensures forall i | 0 <= i < |d| && d[i] < 10.0 * Median(d) :: d[i] in r
    ensures Median(d) > 0.0 ==> |r| > 0
  {
    var r := FilterBelow(d, 10.0 * Median(d));
    assert forall i | 0 <= i < |d| && d[i] < 10.0 * Median(d) :: multiset(r)[d[i]] > 0 by {
      forall i | 0 <= i < |d| && d[i] < 10.0 * Median(d)
        ensures multiset(r)[d[i]] > 0
      {
        assert d[i] in multiset(d);
      }
    }
    assert Median(d) > 0.0 ==> |r| > 0 by {
      if Median(d) > 0.0 {
        var k :| 0 <= k < |d| && d[k] == Min(d);
        assert d[k] < 10.0 * Median(d);
        assert multiset(r)[d[k]] > 0;
      }
    }
    r
  }

  /** `_compute_period_from_peaks` from the event times on: the spacing
      statistics after outlier rejection. */
  function PeriodFromEvents(times: seq<real>): (r: PeriodEstimate)
    ensures |times| < 2 ==> r == NoPeriod
    ensures |times| >= 2 ==> r.times == times
    ensures r.mean.Some? <==> r.spread.Some?
    ensures r.mean.Some? ==> |times| >= 2 && Min(Diffs(times)) <= r.mean.value <= Max(Diffs(times))
    ensures r.spread.Some? ==> r.spread.value >= 0.0
    ensures |times| >= 2 ==> (r.mean.Some? <==> Median(Diffs(times)) > 0.0)
    ensures |times| >= 2 && Median(Diffs(times)) > 0.0 ==>
      var good := KeptSpacings(Diffs(times));
      r.mean == Some(Mean(good)) && r.spread == Some(Variance(good))
  {
    if |times| < 2 then NoPeriod
    else
      var d := Diffs(times);
      var med := Median(d);
      if med <= 0.0 then PeriodEstimate(None, None, times)
      else
        var good := KeptSpacings(d);
        if |good| == 0 then PeriodEstimate(None, None, times)
        else
          assert forall i | 0 <= i < |good| :: Min(d) <= good[i] <= Max(d) by {
            forall i | 0 <= i < |good| ensures Min(d) <= good[i] <= Max(d) {
              assert good[i] in d;
            }
          }
          MeanBounds(good, Min(d), Max(d));
          PeriodEstimate(Some(Mean(good)), Some(Variance(good)), times)
  }

  /** `_compute_period_from_peaks`: nothing for fewer than three samples or
      a flat signal; otherwise the period of the detected events. */
  function ComputePeriod(t: seq<real>, v: seq<real>): (r: PeriodEstimate)
    requires |t| == |v|
    ensures |t| < 3 ==> r == NoPeriod
    ensures |t| >= 3 && Max(v) == Min(v) ==> r == NoPeriod
    ensures |t| >= 3 && Max(v) > Min(v) ==> r == PeriodFromEvents(EventTimes(t, v))
  {
    if |t| < 3 then NoPeriod
    else
      var amplitude := Max(v) - Min(v);
      if amplitude == 0.0 then NoPeriod
      else PeriodFromEvents(EventTimes(t, v))
  }

  /** Times picked at increasing indices of a strictly increasing series
      are strictly increasing. */
  lemma PeakTimesIncreasing(t: seq<real>, v: seq<real>, threshold: real)
    requires |t| == |v| && StrictlyIncreasing(t)
    ensures StrictlyIncreasing(PeakTimes(t, v, threshold))
  {
    var idx := PeakIndices(v, threshold);
    var r := PeakTimes(t, v, threshold);
    forall j, k | 0 <= j < k < |r|
      ensures r[j] < r[k]
    {
      assert idx[j] < idx[k];
    }
  }

  /** Every interpolated crossing of a strictly increasing series falls in
      `(t[i], t[i+1]]` of its own segment. */
  lemma CrossingInSegment(t: seq<real>, v: seq<real>, level: real, j: nat)
    requires |t| == |v| && StrictlyIncreasing(t)
    requires j < |CrossingTimes(t, v, level)|
    ensures var i := CrossingIndices(v, level)[j];
            t[i] < CrossingTimes(t, v, level)[j] <= t[i + 1]
  {
    var i := CrossingIndices(v, level)[j];
    assert IsUpCrossing(v, level, i);
    assert t[i] < t[i + 1];
  }

  /** Crossing times of a strictly increasing series are strictly increasing:
      each lies inside its own segment and the segments come in order. */
  lemma CrossingsIncreasing(t: seq<real>, v: seq<real>, level: real)
    requires |t| == |v| && StrictlyIncreasing(t)
    ensures StrictlyIncreasing(CrossingTimes(t, v, level))
  {
    var idx := CrossingIndices(v, level);
    var r := CrossingTimes(t, v, level);
    forall j | 0 <= j < |r| - 1
      ensures r[j] < r[j + 1]
    {
      var a := idx[j];
      var b := idx[j + 1];
      CrossingInSegment(t, v, level, j);
      CrossingInSegment(t, v, level, j + 1);
      assert a < b;
      assert t[a + 1] <= t[b] by {
        if a + 1 < b { assert t[a + 1] < t[b]; }
      }
    }
    StepwiseIncreasing(r);
  }

  /** Strictly increasing times give a positive period whenever one is
      reported. */
  lemma PeriodPositive(t: seq<real>, v: seq<real>)
    requires |t| == |v| && StrictlyIncreasing(t)
    ensures ComputePeriod(t, v).mean.Some? ==> ComputePeriod(t, v).mean.value > 0.0
  {
    if |t| >= 3 && Max(v) > Min(v) {
      var e := EventTimes(t, v);
      if |e| >= 2 {
        SpacingsPositive(e);
      }
    }
  }

  /** Strictly increasing times are spaced by positive steps only. */
  lemma SpacingsPositive(e: seq<real>)
    requires |e| >= 2 && StrictlyIncreasing(e)
    ensures Min(Diffs(e)) > 0.0
  {
    var d := Diffs(e);
    var k :| 0 <= k < |d| && d[k] == Min(d);
    assert e[k] < e[k + 1];
  }


  /** The window keeps a sample when it is not before `lo` and not after
      `hi`; a missing bound does not restrict. */
  predicate InWindow(lo: Option<real>, hi: Option<real>, x: real)
  {
    (lo.None? || lo.value <= x) && (hi.None? || x <= hi.value)
  }

  /** The indices of the samples inside the window, ascending. */
  function WindowIndices(t: seq<real>, lo: Option<real>, hi: Option<real>): (r: seq<nat>)
    ensures forall j | 0 <= j < |r| :: r[j] < |t| && InWindow(lo, hi, t[r[j]])
    ensures forall i | 0 <= i < |t| && InWindow(lo, hi, t[i]) :: i in r
    ensures forall j, k | 0 <= j < k < |r| :: r[j] < r[k]
  {
    IndicesWhere(|t|, (i: nat) => i < |t| && InWindow(lo, hi, t[i]))
  }

  /** The samples of `(t, v)` inside the window, in their order. */
  function Window(t: seq<real>, v: seq<real>, lo: Option<real>, hi: Option<real>): (r: (seq<real>, seq<real>))
    requires |t| == |v|
    ensures |r.0| == |r.1| == |WindowIndices(t, lo, hi)|
    ensures forall j | 0 <= j < |r.0| ::
      var i := WindowIndices(t, lo, hi)[j];
      r.0[j] == t[i] && r.1[j] == v[i]
    ensures forall j | 0 <= j < |r.0| :: InWindow(lo, hi, r.0[j])
    ensures forall i | 0 <= i < |t| && InWindow(lo, hi, t[i]) :: t[i] in r.0
  {
    var idx := WindowIndices(t, lo, hi);
    var wt := seq(|idx|, j requires 0 <= j < |idx| => t[idx[j]]);
    var wv := seq(|idx|, j requires 0 <= j < |idx| => v[idx[j]]);
    assert forall i | 0 <= i < |t| && InWindow(lo, hi, t[i]) :: t[i] in wt by {
      forall i | 0 <= i < |t| && InWindow(lo, hi, t[i])
        ensures t[i] in wt
      {
        var j :| 0 <= j < |idx| && idx[j] == i;
        assert wt[j] == t[i];
      }
    }
    (wt, wv)
  }

  /** Without bounds the window keeps every sample. */
  lemma WindowUnbounded(t: seq<real>, v: seq<real>)
    requires |t| == |v|
    ensures Window(t, v, None, None) == (t, v)
  {
    var idx := WindowIndices(t, None, None);
    AllIndices(idx, |t|);
    var w := Window(t, v, None, None);
    assert |idx| == |t|;
    assert forall j | 0 <= j < |t| :: w.0[j] == t[j] && w.1[j] == v[j];
    assert w.0 == t && w.1 == v;
  }

  /** The record `measure_on_curve` returns. */
  datatype Measurements = Measurements(
    name: string,
    periodMean: Option<real>,
    periodSpread: Option<real>,
    frequency: Option<real>,
    vMin: real,
    vMax: real,
    peakCount: nat,
    peakTimes: seq<real>)

  /** The `RuntimeError`s `measure_on_curve` raises. */
  datatype MeasureError = NoSuchCurve | NoTimeData | TooFewPointsInWindow

  /** The measurements of some samples: their extreme values, the period
      estimate, and the frequency `1/T` when the period is positive. */
  function MeasureSamples(name: string, t: seq<real>, v: seq<real>): (m: Measurements)
    requires |t| == |v| > 0
    ensures m.name == name
    ensures m.vMin <= m.vMax && m.vMin in v && m.vMax in v
    ensures forall j | 0 <= j < |v| :: m.vMin <= v[j] <= m.vMax
    ensures m.periodMean == ComputePeriod(t, v).mean && m.periodSpread == ComputePeriod(t, v).spread
    ensures m.peakTimes == ComputePeriod(t, v).times && m.peakCount == |m.peakTimes|
    ensures m.frequency == Frequency(m.periodMean)
  {
    var p := ComputePeriod(t, v);
    var f := Frequency(p.mean);
    ExtremesBound(v);
    Measurements(name, p.mean, p.spread, f, Min(v), Max(v), |p.times|, p.times)
  }

  lemma ExtremesBound(v: seq<real>)
    requires |v| > 0
    ensures Min(v) <= Max(v)
    ensures forall j | 0 <= j < |v| :: Min(v) <= v[j] <= Max(v)
  {
    assert forall j | 0 <= j < |v| :: v[j] in v;
  }

  /** The frequency `1/T` of a positive period, and none otherwise. */
  function Frequency(period: Option<real>): (f: Option<real>)
    ensures f.Some? <==> period.Some? && period.value > 0.0
    ensures f.Some? ==> f.value > 0.0 && f.value * period.value == 1.0
  {
    if period.Some? && period.value > 0.0 then Some(1.0 / period.value) else None
  }

  /** `measure_on_curve`: an error for a missing curve or one without
      samples; the window applies only when a bound is given and must keep
      at least two samples; otherwise the measurements of the samples. */
  function MeasureOnCurve(curves: seq<Curve>, index: nat, lo: Option<real>, hi: Option<real>): (r: Result<Measurements, MeasureError>)
    requires index < |curves| ==> curves[index].WellFormed()
    ensures r == Failure(NoSuchCurve) <==> index >= |curves|
    ensures r == Failure(NoTimeData) <==> index < |curves| && |curves[index].time| == 0
    ensures r == Failure(TooFewPointsInWindow) <==>
      && index < |curves| && |curves[index].time| > 0 && (lo.Some? || hi.Some?)
      && |WindowIndices(curves[index].time, lo, hi)| < 2
    ensures index < |curves| && |curves[index].time| > 0 && lo.None? && hi.None? ==>
      r == Success(MeasureSamples(curves[index].name, curves[index].time, curves[index].values))
    ensures index < |curves| && |curves[index].time| > 0 && |WindowIndices(curves[index].time, lo, hi)| >= 2 ==>
      var c := curves[index];
      var w := Window(c.time, c.values, lo, hi);
      r == Success(MeasureSamples(c.name, w.0, w.1))
    ensures r.Success? ==>
      && index < |curves|
      && var c := curves[index];
      && var w := Window(c.time, c.values, lo, hi);
      && |w.0| > 0
      && r.value == MeasureSamples(c.name, w.0, w.1)
  {
    if index >= |curves| then Failure(NoSuchCurve)
    else
      var c := curves[index];
      if |c.time| == 0 then Failure(NoTimeData)
      else
        var w := Window(c.time, c.values, lo, hi);
        if (lo.Some? || hi.Some?) && |w.0| < 2 then Failure(TooFewPointsInWindow)
        else
          WindowUnbounded(c.time, c.values);
          Success(MeasureSamples(c.name, w.0, w.1))
  }
}

=== FILE: names.dfy ===
/** What the program reads out of a curve's display name: the physical unit
    in its trailing parentheses, the default units of the fitting code, the
    derivative marker and, from those, which curves go on the secondary
    y-axis. Also the name given to a derivative curve. */
module Names {
  import opened Wrappers
  import opened Text
  import opened Curves

  /** The unit written between the last `(` and the end of a name, with every
      `)` dropped and surrounding white space stripped; `None` unless the
      name holds both parentheses. */
  function ExtractUnit(name: string): (r: Option<string>)
    ensures r.None? <==> '(' !in name || ')' !in name
    ensures r.Some? ==> '(' !in r.value && ')' !in r.value
    ensures r.Some? && |r.value| > 0 ==> !IsSpace(r.value[0]) && !IsSpace(r.value[|r.value| - 1])
  {
    if |name| == 0 || '(' !in name || ')' !in name then None
    else Some(Strip(RemoveChar(AfterLast(name, '('), ')')))
  }

  /** A name ending in `(u)`, for a unit `u` without parentheses or
      surrounding white space, has unit `u`, whatever precedes it. */
  lemma ExtractUnitOf(m: string, p: string, u: string)
    requires '(' !in u && ')' !in u
    requires |u| > 0 ==> !IsSpace(u[0]) && !IsSpace(u[|u| - 1])
    ensures ExtractUnit(m + (p + "(" + u + ")")) == Some(u)
  {
    var w := u + ")";
    var name := m + (p + "(" + u + ")");
    assert name == m + (p + ['('] + w);
    assert |name| > 0 && '(' in name && ')' in name by {
      assert name[|m| + |p|] == '(' && name[|name| - 1] == ')';
    }
    assert AfterLast(name, '(') == w by {
      assert (p + ['('] + w)[|p|] == '(';
      AfterLastAppend(m, p + ['('] + w, '(');
      AfterLastDelimited(p, w, '(');
    }
    assert RemoveChar(w, ')') == u by {
      RemoveCharAppend(u, ")", ')');
      assert RemoveChar(")", ')') == "";
    }
    assert Strip(u) == u by {
      StripUntrimmed(u);
    }
  }

  /** The unit is read from the text `w` after the last `(`: every `)` in it
      removed and the rest stripped, whenever the name holds a `)`. */
  lemma ExtractUnitAfterParen(p: string, w: string)
    requires '(' !in w && (')' in p || ')' in w)
    ensures ExtractUnit(p + "(" + w) == Some(Strip(RemoveChar(w, ')')))
  {
    var name := p + "(" + w;
    assert name == p + ['('] + w;
    assert '(' in name && ')' in name by {
      assert name[|p|] == '(';
      if ')' in p {
        var k :| 0 <= k < |p| && p[k] == ')';
        assert name[k] == ')';
      } else {
        var k :| 0 <= k < |w| && w[k] == ')';
        assert name[|p| + 1 + k] == ')';
      }
    }
    AfterLastDelimited(p, w, '(');
  }

  const DefaultUnit: string := "U.A."
  const TimeUnit: string := "s"

  /** `get_units_for_model`: the y-unit of a curve (the parsed unit, or
      `"U.A."` when the name has no parenthesised unit) and the fixed x-unit. */
  function UnitsForModel(name: string): (r: (string, string))
    ensures r.1 == TimeUnit
    ensures r.0 == ExtractUnit(name).GetOr(DefaultUnit)
  {
    var y := if '(' in name && ')' in name then Strip(RemoveChar(AfterLast(name, '('), ')')) else DefaultUnit;
    (y, TimeUnit)
  }

  /** The derivative marker test: `'Dérivée' in nom or 'dérivée' in nom or
      'derive' in nom.lower()`. */
  predicate IsDerivativeMarked(name: string)
  {
    Contains(name, "Dérivée") || Contains(name, "dérivée") || Contains(Lower(name), "derive")
  }

  /** Python truthiness of the `unit and primary_unit and unit != primary_unit` test. */
  predicate UnitsClash(unit: Option<string>, primary: Option<string>)
  {
    unit.Some? && |unit.value| > 0 && primary.Some? && |primary.value| > 0 && unit.value != primary.value
  }

  /** Whether curve `i` is drawn against the secondary y-axis. */
  predicate IsSecondary(curves: seq<Curve>, i: nat)
    requires i < |curves|
  {
    && i != 0
    && (|| UnitsClash(ExtractUnit(curves[i].name), ExtractUnit(curves[0].name))
        || IsDerivativeMarked(curves[i].name))
  }

  /** The `secondary_indices` set built by `plot_mode_unique`. */
  function SecondaryIndices(curves: seq<Curve>): (r: set<nat>)
    ensures 0 !in r
    ensures forall i | i in r :: i < |curves| && IsSecondary(curves, i)
    ensures forall i: nat | i < |curves| && IsSecondary(curves, i) :: i in r
  {
    set i: nat | i < |curves| && IsSecondary(curves, i)
  }

  /** A unit as the program writes one: no parentheses, no surrounding white space. */
  predicate PlainUnit(u: string)
  {
    '(' !in u && ')' !in u && (|u| > 0 ==> !IsSpace(u[0]) && !IsSpace(u[|u| - 1]))
  }

  /** Two curves with different non-empty units are split across the axes. */
  lemma AxisPartitionSplitsUnits(c0: Curve, c1: Curve, p0: string, u0: string, p1: string, u1: string)
    requires PlainUnit(u0) && PlainUnit(u1) && |u0| > 0 && |u1| > 0 && u0 != u1
    requires c0.name == "" + (p0 + "(" + u0 + ")") && c1.name == "" + (p1 + "(" + u1 + ")")
    ensures SecondaryIndices([c0, c1]) == {1}
  {
    ExtractUnitOf("", p0, u0);
    ExtractUnitOf("", p1, u1);
    assert UnitsClash(ExtractUnit(c1.name), ExtractUnit(c0.name));
    SecondaryOfTwo(c0, c1);
  }

  /** A curve after the first whose non-empty unit differs from the first
      curve's non-empty unit is secondary. */
  lemma ClashIsSecondary(curves: seq<Curve>, i: nat, u: string)
    requires 0 < i < |curves| && ExtractUnit(curves[i].name) == Some(u) && |u| > 0
    requires ExtractUnit(curves[0].name).Some? && |ExtractUnit(curves[0].name).value| > 0
    requires u != ExtractUnit(curves[0].name).value
    ensures IsSecondary(curves, i)
  {
  }

  /** With two curves only the second can be secondary. */
  lemma SecondaryOfTwo(c0: Curve, c1: Curve)
    ensures SecondaryIndices([c0, c1]) == if IsSecondary([c0, c1], 1) then {1} else {}
  {
    var r := SecondaryIndices([c0, c1]);
    assert forall i | i in r :: i == 1;
  }

  /** Two curves sharing a unit share the primary axis unless the second
      carries the derivative marker. */
  lemma AxisPartitionKeepsUnits(c0: Curve, c1: Curve, p0: string, p1: string, u: string)
    requires PlainUnit(u)
    requires c0.name == "" + (p0 + "(" + u + ")") && c1.name == "" + (p1 + "(" + u + ")")
    requires !IsDerivativeMarked(c1.name)
    ensures SecondaryIndices([c0, c1]) == {}
  {
    ExtractUnitOf("", p0, u);
    ExtractUnitOf("", p1, u);
    assert !UnitsClash(ExtractUnit(c1.name), ExtractUnit(c0.name));
    SecondaryOfTwo(c0, c1);
  }

  /** `"U (V)"` and `"I (A)"` go on different axes. */
  lemma AxisPartitionSplitExample(c0: Curve, c1: Curve)
    requires c0.name == "U (V)" && c1.name == "I (A)"
    ensures SecondaryIndices([c0, c1]) == {1}
  {
    assert c0.name == "" + ("U " + "(" + "V" + ")");
    assert c1.name == "" + ("I " + "(" + "A" + ")");
    AxisPartitionSplitsUnits(c0, c1, "U ", "V", "I ", "A");
  }

  /** `"U (V)"` and `"U2 (V)"` share the primary axis. */
  lemma AxisPartitionKeepExample(c0: Curve, c1: Curve)
    requires c0.name == "U (V)" && c1.name == "U2 (V)"
    ensures SecondaryIndices([c0, c1]) == {}
  {
    assert c0.name == "" + ("U " + "(" + "V" + ")");
    assert c1.name == "" + ("U2 " + "(" + "V" + ")");
    NotDerivativeMarked(c1.name);
    AxisPartitionKeepsUnits(c0, c1, "U ", "U2 ", "V");
  }

  /** A name with no `D`, `d` or `é` carries no derivative marker. */
  lemma NotDerivativeMarked(name: string)
    requires 'D' !in name && 'd' !in name && 'é' !in name
    ensures !IsDerivativeMarked(name)
  {
    if Contains(name, "Dérivée") { ContainsHead(name, "Dérivée"); }
    if Contains(name, "dérivée") { ContainsHead(name, "dérivée"); }
    if Contains(Lower(name), "derive") {
      LowerWithoutD(name);
      ContainsHead(Lower(name), "derive");
    }
  }

  /** Lower-casing a name with no `D` or `d` yields no `d`. */
  lemma LowerWithoutD(name: string)
    requires 'D' !in name && 'd' !in name
    ensures 'd' !in Lower(name)
  {
    forall i | 0 <= i < |name|
      ensures Lower(name)[i] != 'd'
    {
      assert name[i] != 'D' && name[i] != 'd';
    }
  }

  /** The name `calculer_derivee` gives the derivative of a curve named
      `base`: the marker, the base name up to its first `(`, then the
      derivative's unit in parentheses. */
  function DerivativeName(base: string): (r: string)
    ensures IsDerivativeMarked(r)
    ensures DerivativeMarker + " d(" <= r && r[|r| - 1] == ')'
  {
    var units := UnitsForModel(base);
    var head := Strip(BeforeFirst(base, '('));
    DerivativeNameShape(head, units.0 + "/" + units.1);
    DerivativeLayout(head, units.0 + "/" + units.1)
  }

  /** `Dérivée d(<head>)/dt (<u>)`, the f-string of `calculer_derivee`. */
  function DerivativeLayout(head: string, u: string): string
  {
    DerivativeMarker + (" d(" + head + ")/dt " + "(" + u + ")")
  }

  /** The marker, the opening ` d(` and the closing `)` of a derivative
      name around the base name `head` and the unit `u`. */
  lemma DerivativeNameShape(head: string, u: string)
    ensures var r := DerivativeLayout(head, u);
            && IsDerivativeMarked(r)
            && DerivativeMarker + " d(" <= r && r[|r| - 1] == ')'
  {
    ContainsPrefix(DerivativeMarker, " d(" + head + ")/dt " + "(" + u + ")");
  }

  /** In the same layout, `head` sits right after the marker and ` d(`. */
  lemma BaseAfterMarker(head: string, u: string)
    ensures DerivativeMarker + " d(" + head <= DerivativeLayout(head, u)
  {
    var p := DerivativeMarker + " d(" + head;
    assert DerivativeLayout(head, u) == p + (")/dt " + "(" + u + ")");
  }

  /** A derivative's name starts with `Dérivée d(` followed by the base
      name up to its first `(`, stripped. */
  lemma DerivativeNameHoldsBase(base: string)
    ensures DerivativeMarker + " d(" + Strip(BeforeFirst(base, '(')) <= DerivativeName(base)
  {
    BaseAfterMarker(Strip(BeforeFirst(base, '(')), UnitsForModel(base).0 + "/" + UnitsForModel(base).1);
  }

  const DerivativeMarker: string := "Dérivée"

  /** A unit read from a name (or the default unit) has no parentheses and
      does not start with white space. */
  lemma ModelUnitClean(base: string)
    ensures var y := UnitsForModel(base).0;
            '(' !in y && ')' !in y && (|y| > 0 ==> !IsSpace(y[0]))
  {
    var y := UnitsForModel(base).0;
    if ExtractUnit(base).None? {
      assert y == DefaultUnit;
    }
  }

  /** The unit parsed back from a derivative's layout is the unit `y + "/s"`
      written in it. */
  lemma LayoutUnit(head: string, y: string)
    requires '(' !in y && ')' !in y && (|y| > 0 ==> !IsSpace(y[0]))
    ensures ExtractUnit(DerivativeLayout(head, y + "/" + TimeUnit)) == Some(y + "/s")
  {
    var u := y + "/s";
    assert u[|u| - 1] == 's';
    assert u[0] == if |y| > 0 then y[0] else '/';
    assert DerivativeLayout(head, y + "/" + TimeUnit)
        == DerivativeMarker + (" d(" + head + ")/dt " + "(" + u + ")");
    ExtractUnitOf(DerivativeMarker, " d(" + head + ")/dt ", u);
  }

  /** The unit parsed back from a derivative's name is the y-unit of the
      original curve over seconds. */
  lemma DerivativeUnitRoundTrip(base: string)
    ensures ExtractUnit(DerivativeName(base)) == Some(UnitsForModel(base).0 + "/s")
  {
    ModelUnitClean(base);
    LayoutUnit(Strip(BeforeFirst(base, '(')), UnitsForModel(base).0);
  }

  /** A derivative appended after the first curve always lands on the
      secondary axis, whatever the units. */
  lemma DerivativeIsSecondary(curves: seq<Curve>, i: nat, base: string)
    requires 0 < i < |curves| && curves[i].name == DerivativeName(base)
    ensures IsSecondary(curves, i)
  {
  }
}

=== FILE: session.dfy ===
/** The commands that change the curves of a view and then refresh it:
    the single-cell edit of the data table, appending a derivative and
    appending a model curve. Each ends with `plot_mode_unique` followed by
    `auto_calibrate_plot`. */
module Session {
  import opened Wrappers
  import opened Curves
  import opened Names
  import opened CurveSet
  import opened Calibration
  import opened Differences
  import opened Derivative
  import opened Fit

  /** `select_curve_dialog` for a view of `n` curves: `picked` is the list
      entry the user confirmed, `None` when the dialog was closed. No curves
      give nothing, a single curve is chosen without asking, and otherwise
      the pick is the answer. */
  function SelectCurve(n: nat, picked: Option<nat>): (r: Option<nat>)
    requires picked.Some? ==> picked.value < n
    ensures n == 0 ==> r.None?
    ensures n == 1 ==> r == Some(0)
    ensures n >= 2 ==> r == picked
    ensures r.Some? ==> r.value < n
  {
    if n == 0 then None else if n == 1 then Some(0) else picked
  }

  /** `auto_calibrate_plot` as the editing commands run it: the displayed
      extents are saved as previous first, so when the data crash the
      concatenation (curves, but no samples at all) that save is the only
      change. */
  function TryAutoCalibrate(v: View): (r: View)
    ensures r == v.(previous := v.current, current := r.current)
    ensures CanAutoCalibrate(v) ==> r == AutoCalibrate(v).0
    ensures !CanAutoCalibrate(v) ==> r.current == v.current
  {
    if CanAutoCalibrate(v) then AutoCalibrate(v).0 else v.(previous := v.current)
  }

  /** The refresh every command below ends with: flags and colours synced,
      the extents shown before the refresh become previous, the secondary
      axis recomputed, and, once some curve has samples, an x-extent that
      frames every sample time. */
  function Refresh(v: View): (r: View)
    ensures r.Aligned()
    ensures r.curves == v.curves && r.trash == v.trash && r.active == v.active && r.initial == v.initial
    ensures r.previous == v.current
    ensures r.secondaryAxis <==> exists i: nat | i < |v.curves| :: IsSecondary(v.curves, i)
    ensures forall i | 0 <= i < |v.curves| && i < |v.visible| :: r.visible[i] == v.visible[i]
    ensures forall i | 0 <= i < |v.curves| && i < |v.colors| :: r.colors[i] == v.colors[i]
    ensures HasSamples(v.curves) ==>
      forall i, j | 0 <= i < |v.curves| && 0 <= j < |v.curves[i].time| :: r.current.x.Frames(v.curves[i].time[j])
  {
    RenderKeepsSlots(v);
    TryAutoCalibrate(Render(v))
  }

  /** A list whose first entries are those of `a` starts with `a`. */
  lemma PrefixKept<T>(a: seq<T>, b: seq<T>)
    requires |a| <= |b| && forall i | 0 <= i < |a| :: b[i] == a[i]
    ensures b[..|a|] == a
  {
  }

  /** The editable copy `_show_data_table_for_curve` keeps of one curve:
      the index it came from and its time and value lists. */
  datatype Table = Table(index: nat, time: seq<real>, values: seq<real>, name: string, isRaw: bool)
  {
    function AsCurve(): Curve
    {
      Curve(time, values, name, isRaw)
    }
  }

  /** Opening the table of curve `index`; an index past the end is the
      error the program reports instead of a table. */
  function OpenTable(v: View, index: nat): (r: Option<Table>)
    ensures r.None? <==> index >= |v.curves|
    ensures r.Some? ==> r.value.index == index && r.value.AsCurve() == v.curves[index]
  {
    if index >= |v.curves| then None
    else
      var c := v.curves[index];
      Some(Table(index, c.time, c.values, c.name, c.isRaw))
  }

  /** The column of the table a cell belongs to. */
  datatype Column = TimeColumn | ValueColumn | ComputedColumn

  /** Writing the table back over the curve at its index; an index that
      no longer exists is skipped, as the program swallows the error. */
  function StoreTable(v: View, tb: Table): (r: View)
    ensures tb.index < |v.curves| ==> r.curves == v.curves[tb.index := tb.AsCurve()]
    ensures tb.index >= |v.curves| ==> r == v
    ensures r == v.(curves := r.curves)
  {
    if tb.index < |v.curves| then v.(curves := v.curves[tb.index := tb.AsCurve()]) else v
  }

  /** `save_edit`: `entry` is the parsed number, `None` when the text is not
      one. A non-number in the time or value column changes nothing. A
      number replaces that cell; then the table is written back over its
      curve, and the view is refreshed. A computed column is not part of the
      curve, so editing one writes the unchanged table back and refreshes.
      Times are never re-sorted. */
  function EditCell(v: View, tb: Table, row: nat, col: Column, entry: Option<real>): (r: (View, Table))
    requires row < |tb.time| && row < |tb.values|
    ensures col != ComputedColumn && entry.None? ==> r == (v, tb)
    ensures col == TimeColumn && entry.Some? ==> r.1 == tb.(time := tb.time[row := entry.value])
    ensures col == ValueColumn && entry.Some? ==> r.1 == tb.(values := tb.values[row := entry.value])
    ensures col == ComputedColumn ==> r.1 == tb
    ensures col == ComputedColumn || entry.Some? ==> r.0 == Refresh(StoreTable(v, r.1))
  {
    if col != ComputedColumn && entry.None? then (v, tb)
    else
      var tb' := match col
        case TimeColumn => tb.(time := tb.time[row := entry.value])
        case ValueColumn => tb.(values := tb.values[row := entry.value])
        case ComputedColumn => tb;
      (Refresh(StoreTable(v, tb')), tb')
  }

  /** Editing a time in a freshly opened table changes exactly that sample
      of that curve: every other sample, every other curve, the trash and,
      for an aligned view, the flags and colours stay as they were, and
      the extents shown before the edit become previous. */
  lemma EditFreshTable(v: View, i: nat, row: nat, x: real)
    requires v.Aligned() && i < |v.curves|
    requires row < |v.curves[i].time| && row < |v.curves[i].values|
    ensures var r := EditCell(v, OpenTable(v, i).value, row, TimeColumn, Some(x)).0;
            && |r.curves| == |v.curves|
            && r.curves[i].time == v.curves[i].time[row := x]
            && r.curves[i].values == v.curves[i].values
            && r.curves[i].name == v.curves[i].name
            && (forall j | 0 <= j < |v.curves| && j != i :: r.curves[j] == v.curves[j])
            && r.trash == v.trash
            && r.visible == v.visible && r.colors == v.colors
            && r.previous == v.current
  {
    var tb := OpenTable(v, i).value;
    var tb' := tb.(time := tb.time[row := x]);
    var s := StoreTable(v, tb');
    RenderKeepsAligned(s);
  }

  /** The edit path never re-sorts: moving the first time of a curve past
      its second leaves the curve's times out of order. */
  lemma EditCanUnsort(v: View, i: nat, x: real)
    requires i < |v.curves| && |v.curves[i].time| >= 2 && |v.curves[i].values| >= 1
    requires x > v.curves[i].time[1]
    ensures !Stats.NonDecreasing(EditCell(v, OpenTable(v, i).value, 0, TimeColumn, Some(x)).0.curves[i].time)
  {
    var tb := OpenTable(v, i).value;
    TimeEditStores(v, tb, 0, x);
    var t := tb.time[0 := x];
    assert t[0] == x && t[1] == v.curves[i].time[1];
  }

  /** A time edit writes the table, with that one time replaced, back over
      the curve at its index. */
  lemma TimeEditStores(w: View, tb: Table, row: nat, x: real)
    requires tb.index < |w.curves| && row < |tb.time| && row < |tb.values|
    ensures EditCell(w, tb, row, TimeColumn, Some(x)).0.curves[tb.index].time == tb.time[row := x]
  {
  }

  /** Editing a computed column, or any cell of a table whose curve is gone,
      leaves the curves as they are and only refreshes the view. */
  lemma ComputedEditKeepsCurves(v: View, i: nat, row: nat, entry: Option<real>)
    requires i < |v.curves| && row < |v.curves[i].time| && row < |v.curves[i].values|
    ensures EditCell(v, OpenTable(v, i).value, row, ComputedColumn, entry).0.curves == v.curves
  {
    var tb := OpenTable(v, i).value;
    assert v.curves[i := tb.AsCurve()] == v.curves;
  }

  /** A table outlives the curve it was opened on: when that curve has been
      removed, an edit writes the stale copy over the curve that moved into
      its place, so the removed curve is both shown again and still in the
      trash, and the curve that followed it is gone from the view. */
  lemma StaleTableOverwrites(v: View, i: nat, row: nat, entry: Option<real>)
    requires i + 1 < |v.curves|
    requires row < |v.curves[i].time| && row < |v.curves[i].values|
    ensures RemoveCurve(v, i).Success?
    ensures var w := RemoveCurve(v, i).value;
            var r := EditCell(w, OpenTable(v, i).value, row, ComputedColumn, entry).0;
            && r.curves[i] == v.curves[i]
            && v.curves[i] in r.trash
            && |r.curves| == |v.curves| - 1
  {
    var w := RemoveCurve(v, i).value;
    var tb := OpenTable(v, i).value;
    assert tb.index < |w.curves| && w.trash[|w.trash| - 1] == v.curves[i];
    ComputedEditStores(w, tb, row, entry);
  }

  /** A computed-column edit writes the table back over the curve at its
      index and leaves the trash alone. */
  lemma ComputedEditStores(w: View, tb: Table, row: nat, entry: Option<real>)
    requires tb.index < |w.curves| && row < |tb.time| && row < |tb.values|
    ensures EditCell(w, tb, row, ComputedColumn, entry).0.curves == w.curves[tb.index := tb.AsCurve()]
    ensures EditCell(w, tb, row, ComputedColumn, entry).0.trash == w.trash
  {
  }

  /** What `calculer_derivee` and the `modeliser_*` commands share: the new
      curve `c` is appended and the view refreshed. The trash, the active
      index and the initial extents stay, an aligned view keeps every
      existing flag and colour, and the x-range frames every time of `c`. */
  function AppendCurve(v: View, c: Curve): (r: View)
    ensures r.curves == v.curves + [c] && r.Aligned()
    ensures r.previous == v.current
    ensures r.trash == v.trash && r.active == v.active && r.initial == v.initial
    ensures v.Aligned() ==> r.visible[..|v.visible|] == v.visible && r.colors[..|v.colors|] == v.colors
    ensures r.secondaryAxis <==> exists i: nat | i < |r.curves| :: IsSecondary(r.curves, i)
    ensures forall j | 0 <= j < |c.time| :: r.current.x.Frames(c.time[j])
  {
    var curves := v.curves + [c];
    assert curves[|v.curves|] == c;
    var r := Refresh(v.(curves := curves));
    assert v.Aligned() ==> r.visible[..|v.visible|] == v.visible && r.colors[..|v.colors|] == v.colors by {
      if v.Aligned() {
        PrefixKept(v.visible, r.visible);
        PrefixKept(v.colors, r.colors);
      }
    }
    assert |c.time| > 0 ==> HasSamples(curves);
    r
  }

  /** `calculer_derivee`: a curve of fewer than two samples changes nothing;
      otherwise its derivative is appended, lands on the secondary axis, and
      the refresh frames every derivative time. */
  function AddDerivative(v: View, idx: nat): (r: View)
    requires idx < |v.curves| && v.curves[idx].WellFormed() && DistinctSteps(v.curves[idx].time)
    ensures |v.curves[idx].time| < 2 ==> r == v
    ensures |v.curves[idx].time| >= 2 ==>
      && r.curves == v.curves + [Derive(v.curves[idx]).value]
      && r.Aligned()
      && r.secondaryAxis
      && r.previous == v.current
      && r.trash == v.trash && r.active == v.active && r.initial == v.initial
      && (v.Aligned() ==> r.visible[..|v.visible|] == v.visible && r.colors[..|v.colors|] == v.colors)
      && forall j | 0 <= j < |v.curves[idx].time| - 1 :: r.current.x.Frames(Derive(v.curves[idx]).value.time[j])
  {
    var d := Derive(v.curves[idx]);
    if d.None? then v
    else
      var curves := v.curves + [d.value];
      assert IsSecondary(curves, |v.curves|) by {
        DerivativeIsSecondary(curves, |v.curves|, v.curves[idx].name);
      }
      AppendCurve(v, d.value)
  }

  /** The number of parameters each model fits; the solver refuses a curve
      with fewer samples than that. */
  function ParameterCount(p: Params): (r: nat)
    ensures 1 <= r <= 3
  {
    match p
    case LinearParams(_) => 1
    case AffineParams(_, _) => 2
    case ExponentialParams(_, _, _) => 3
    case PowerParams(_, _, _) => 3
  }

  /** The `modeliser_*` commands around the solver: `fit` is the solver's
      outcome (`None` when it fails). With too few samples for the model, or
      a failed fit, nothing changes; otherwise the model curve, evaluated at
      the fitting times and named after the fit, is appended and the
      refresh frames every fitting time. */
  function AddModelCurve(v: View, idx: nat, fit: Option<Params>, exp: real -> real, pow: (real, real) -> real,
                         sci: real -> string, fixed: real -> string): (r: View)
    requires idx < |v.curves| && v.curves[idx].WellFormed()
    requires fit.Some? && fit.value.ExponentialParams? ==> fit.value.tau != 0.0
    ensures fit.None? || |v.curves[idx].time| < ParameterCount(fit.value) ==> r == v
    ensures fit.Some? && |v.curves[idx].time| >= ParameterCount(fit.value) ==>
      && r.curves == v.curves + [ModelCurve(v.curves[idx], fit.value, exp, pow, ModelName(fit.value, sci, fixed, v.curves[idx].name))]
      && r.Aligned()
      && r.previous == v.current
      && r.trash == v.trash && r.active == v.active && r.initial == v.initial
      && (v.Aligned() ==> r.visible[..|v.visible|] == v.visible && r.colors[..|v.colors|] == v.colors)
      && (r.secondaryAxis <==> exists i: nat | i < |r.curves| :: IsSecondary(r.curves, i))
      && forall j | 0 <= j < |v.curves[idx].time| :: r.current.x.Frames(FitTimes(fit.value, v.curves[idx].time)[j])
  {
    if fit.None? || |v.curves[idx].time| < ParameterCount(fit.value) then v
    else
      var c := v.curves[idx];
      AppendCurve(v, ModelCurve(c, fit.value, exp, pow, ModelName(fit.value, sci, fixed, c.name)))
  }

  /** An affine model added after a first curve with an ordinary unit is
      drawn on the secondary axis, like a derivative. */
  lemma AffineModelOnSecondaryAxis(v: View, idx: nat, a: real, b: real, exp: real -> real, pow: (real, real) -> real,
                                   sci: real -> string, fixed: real -> string)
    requires idx < |v.curves| && v.curves[idx].WellFormed() && |v.curves[idx].time| >= 2
    requires '(' !in sci(a) + sci(b) && ')' !in sci(a) + sci(b)
    requires |sci(b)| > 0 && !Text.IsSpace(sci(b)[|sci(b)| - 1])
    requires ExtractUnit(v.curves[0].name).Some? && |ExtractUnit(v.curves[0].name).value| > 0
    requires '=' !in ExtractUnit(v.curves[0].name).value
    ensures AddModelCurve(v, idx, Some(AffineParams(a, b)), exp, pow, sci, fixed).secondaryAxis
  {
    var c := v.curves[idx];
    var p := AffineParams(a, b);
    var curves := v.curves + [ModelCurve(c, p, exp, pow, ModelName(p, sci, fixed, c.name))];
    AffineModelIsSecondary(curves, |v.curves|, a, b, sci, fixed, c.name);
  }
}

=== FILE: spectrum.dfy ===
/** The guards `compute_fft_for_curve` runs before the transform: fewer
    than two samples give an empty spectrum, and samples whose times do not
    strictly increase are reordered by time first. The sampling step the
    transform then uses is the mean time step. */
module Spectrum {
  import opened Wrappers
  import opened Stats

  /** The `(time, value)` samples of a curve. */
  function Zip(t: seq<real>, v: seq<real>): (r: seq<(real, real)>)
    requires |t| == |v|
    ensures |r| == |t|
    ensures forall i | 0 <= i < |r| :: r[i] == (t[i], v[i])
  {
    seq(|t|, i requires 0 <= i < |t| => (t[i], v[i]))
  }

  function Times(ps: seq<(real, real)>): (r: seq<real>)
    ensures |r| == |ps|
    ensures forall i | 0 <= i < |r| :: r[i] == ps[i].0
  {
    seq(|ps|, i requires 0 <= i < |ps| => ps[i].0)
  }

  function Values(ps: seq<(real, real)>): (r: seq<real>)
    ensures |r| == |ps|
    ensures forall i | 0 <= i < |r| :: r[i] == ps[i].1
  {
    seq(|ps|, i requires 0 <= i < |ps| => ps[i].1)
  }

  /** Splitting the samples back gives the two arrays they came from, and
      zipping split samples gives the samples. */
  lemma ZipRoundTrip(t: seq<real>, v: seq<real>, ps: seq<(real, real)>)
    requires |t| == |v|
    ensures Times(Zip(t, v)) == t && Values(Zip(t, v)) == v
    ensures Zip(Times(ps), Values(ps)) == ps
  {
  }

  function TimeOf(p: (real, real)): real
  {
    p.0
  }

  /** Every consecutive time step is positive: the negation of the
      `np.any(dt <= 0)` test. */
  predicate StepsPositive(t: seq<real>)
    requires |t| >= 1
  {
    var dt := Diffs(t);
    forall i | 0 <= i < |dt| :: dt[i] > 0.0
  }

  /** The arrays the transform is computed on: nothing for fewer than two
      samples; the samples themselves when their times strictly increase;
      otherwise the same samples reordered by time (`np.argsort`, here a
      stable sort). */
  function PrepareInput(t: seq<real>, v: seq<real>): (r: Option<(seq<real>, seq<real>)>)
    requires |t| == |v|
    ensures r.None? <==> |t| < 2
    ensures r.Some? ==> |r.value.0| == |t| && |r.value.1| == |t|
    ensures r.Some? ==> NonDecreasing(r.value.0)
    ensures r.Some? ==> multiset(Zip(r.value.0, r.value.1)) == multiset(Zip(t, v))
    ensures r.Some? && StepsPositive(t) ==> r.value == (t, v)
  {
    if |t| < 2 then None
    else if StepsPositive(t) then
      var dt := Diffs(t);
      assert forall i | 0 <= i < |t| - 1 :: t[i] < t[i + 1] by {
        forall i | 0 <= i < |t| - 1
          ensures t[i] < t[i + 1]
        {
          assert t[i] + dt[i] == t[i + 1];
        }
      }
      StepwiseIncreasing(t);
      Some((t, v))
    else
      var s := SortBy(Zip(t, v), TimeOf);
      ZipRoundTrip(t, v, s);
      Some((Times(s), Values(s)))
  }

  /** Input that has passed the guard keeps its times and values together:
      every prepared sample is one of the curve's samples. */
  lemma PreparedSamplesAreSamples(t: seq<real>, v: seq<real>, i: nat)
    requires |t| == |v| && PrepareInput(t, v).Some?
    requires i < |PrepareInput(t, v).value.0|
    ensures var r := PrepareInput(t, v).value;
            exists j | 0 <= j < |t| :: r.0[i] == t[j] && r.1[i] == v[j]
  {
    var r := PrepareInput(t, v).value;
    var z := Zip(r.0, r.1);
    assert z[i] in multiset(z);
    assert z[i] in multiset(Zip(t, v));
    var j :| 0 <= j < |t| && Zip(t, v)[j] == z[i];
  }

  /** The time steps of a curve add up to its last time minus its first. */
  lemma {:induction false} SumOfSteps(t: seq<real>)
    requires |t| >= 1
    ensures Sum(Diffs(t)) == t[|t| - 1] - t[0]
    decreases |t|
  {
    if |t| > 1 {
      var p := t[..|t| - 1];
      SumOfSteps(p);
      var d := Diffs(t);
      assert d[..|d| - 1] == Diffs(p);
      assert d[|d| - 1] == t[|t| - 1] - t[|t| - 2];
    }
  }

  /** The mean time step is the time span over the number of steps, so for
      times in order it is never negative, and it is zero exactly when all
      times are equal. */
  lemma MeanStepOfSorted(ts: seq<real>)
    requires |ts| >= 2 && NonDecreasing(ts)
    ensures Mean(Diffs(ts)) * ((|ts| - 1) as real) == ts[|ts| - 1] - ts[0]
    ensures Mean(Diffs(ts)) >= 0.0
    ensures Mean(Diffs(ts)) == 0.0 <==> forall i | 0 <= i < |ts| :: ts[i] == ts[0]
  {
    var n := (|ts| - 1) as real;
    var span := ts[|ts| - 1] - ts[0];
    var m := Mean(Diffs(ts));
    assert m == span / n by { SumOfSteps(ts); }
    assert span >= 0.0;
    Quotient(span, n);
    if span == 0.0 {
      forall i | 0 <= i < |ts|
        ensures ts[i] == ts[0]
      {
        assert ts[0] <= ts[i] <= ts[|ts| - 1];
      }
    } else {
      assert ts[|ts| - 1] != ts[0];
    }
  }

  lemma Quotient(a: real, n: real)
    requires n > 0.0
    ensures (a / n) * n == a
    ensures a >= 0.0 ==> a / n >= 0.0
    ensures a / n == 0.0 <==> a == 0.0
  {
  }

  /** For prepared input, the sampling rate `1/mean(dt)` divides by zero
      exactly when all times are equal. */
  lemma MeanStep(t: seq<real>, v: seq<real>)
    requires |t| == |v| && PrepareInput(t, v).Some?
    ensures var ts := PrepareInput(t, v).value.0;
            Mean(Diffs(ts)) >= 0.0 && (Mean(Diffs(ts)) == 0.0 <==> forall i | 0 <= i < |ts| :: ts[i] == ts[0])
  {
    MeanStepOfSorted(PrepareInput(t, v).value.0);
  }
}

=== FILE: stats.dfy ===
/** The numpy reductions the measurement engine relies on, over exact reals:
    `np.min`, `np.max`, `np.mean`, `np.median`, `np.diff`, boolean-mask
    filtering, a population variance standing in for `np.std`, and a
    sort by key standing in for `np.argsort`/`np.sort`. */
module Stats {

  function Min(s: seq<real>): (m: real)
    requires |s| > 0
    ensures m in s
    ensures forall x | x in s :: m <= x
  {
    if |s| == 1 then s[0]
    else
      var m' := Min(s[1..]);
      assert forall x | x in s :: x == s[0] || x in s[1..];
      if s[0] <= m' then s[0] else m'
  }

  function Max(s: seq<real>): (m: real)
    requires |s| > 0
    ensures m in s
    ensures forall x | x in s :: x <= m
  {
    if |s| == 1 then s[0]
    else
      var m' := Max(s[1..]);
      assert forall x | x in s :: x == s[0] || x in s[1..];
      if s[0] >= m' then s[0] else m'
  }

  function Sum(s: seq<real>): real
  {
    if |s| == 0 then 0.0 else Sum(s[..|s| - 1]) + s[|s| - 1]
  }

  /** `np.mean`. */
  function Mean(s: seq<real>): real
    requires |s| > 0
  {
    Sum(s) / (|s| as real)
  }

  /** The population variance `np.std` takes the square root of. */
  function Variance(s: seq<real>): (r: real)
    requires |s| > 0
    ensures r >= 0.0
  {
    var m := Mean(s);
    var sq := seq(|s|, i requires 0 <= i < |s| => (s[i] - m) * (s[i] - m));
    SumNonNegative(sq);
    Mean(sq)
  }

  lemma {:induction false} SumNonNegative(s: seq<real>)
    requires forall i | 0 <= i < |s| :: s[i] >= 0.0
    ensures Sum(s) >= 0.0
  {
    if |s| > 0 {
      SumNonNegative(s[..|s| - 1]);
    }
  }

  /** A sum of values all within `[lo, hi]` lies within `[n·lo, n·hi]`. */
  lemma {:induction false} SumBounds(s: seq<real>, lo: real, hi: real)
    requires forall i | 0 <= i < |s| :: lo <= s[i] <= hi
    ensures (|s| as real) * lo <= Sum(s) <= (|s| as real) * hi
  {
    if |s| > 0 {
      SumBounds(s[..|s| - 1], lo, hi);
    }
  }

  /** The mean of values all within `[lo, hi]` lies within `[lo, hi]`. */
  lemma MeanBounds(s: seq<real>, lo: real, hi: real)
    requires |s| > 0
    requires forall i | 0 <= i < |s| :: lo <= s[i] <= hi
    ensures lo <= Mean(s) <= hi
  {
    SumBounds(s, lo, hi);
    QuotientBounds(Sum(s), |s| as real, lo, hi);
  }

  lemma QuotientBounds(a: real, n: real, lo: real, hi: real)
    requires n > 0.0 && n * lo <= a <= n * hi
    ensures lo <= a / n <= hi
  {
    var q := a / n;
    assert q * n == a;
  }

  /** `np.diff`: consecutive differences. */
  function Diffs(s: seq<real>): (d: seq<real>)
    requires |s| >= 1
    ensures |d| == |s| - 1
    ensures forall i | 0 <= i < |d| :: s[i] + d[i] == s[i + 1]
  {
    seq(|s| - 1, i requires 0 <= i < |s| - 1 => s[i + 1] - s[i])
  }

  predicate StrictlyIncreasing(s: seq<real>)
  {
    forall i, j | 0 <= i < j < |s| :: s[i] < s[j]
  }

  predicate NonDecreasing(s: seq<real>)
  {
    forall i, j | 0 <= i < j < |s| :: s[i] <= s[j]
  }

  /** Consecutive strict increase is the same as strict increase. */
  lemma {:induction false} StepwiseIncreasing(s: seq<real>)
    requires forall i | 0 <= i < |s| - 1 :: s[i] < s[i + 1]
    ensures StrictlyIncreasing(s)
    decreases |s|
  {
    if |s| > 1 {
      var p := s[..|s| - 1];
      StepwiseIncreasing(p);
      forall i | 0 <= i < |s| - 1
        ensures s[i] < s[|s| - 1]
      {
        assert p[i] <= p[|p| - 1] by {
          if i < |p| - 1 { assert p[i] < p[|p| - 1]; }
        }
      }
    }
  }

  /** `s[s < bound]`: the elements below `bound`, each as often as in `s`. */
  function FilterBelow(s: seq<real>, bound: real): (r: seq<real>)
    ensures forall x :: multiset(r)[x] == (if x < bound then multiset(s)[x] else 0)
    ensures forall i | 0 <= i < |r| :: r[i] < bound && r[i] in s
  {
    if |s| == 0 then []
    else
      var p := s[..|s| - 1];
      var last := s[|s| - 1];
      var rest := FilterBelow(p, bound);
      assert s == p + [last];
      if last < bound then rest + [last] else rest
  }

  /** Sortedness of a sequence with respect to a real-valued key. */
  predicate SortedBy<T>(s: seq<T>, key: T -> real)
  {
    forall i, j | 0 <= i < j < |s| :: key(s[i]) <= key(s[j])
  }

  /** A sequence holding the elements of `t` and `x`, all keyed at least
      `lo`, has every key at least `lo`. */
  lemma BoundKeptByPermutation<T>(r: seq<T>, t: seq<T>, x: T, key: T -> real, lo: real)
    requires multiset(r) == multiset(t) + multiset{x}
    requires lo <= key(x) && forall k | 0 <= k < |t| :: lo <= key(t[k])
    ensures forall k | 0 <= k < |r| :: lo <= key(r[k])
  {
    forall k | 0 <= k < |r|
      ensures lo <= key(r[k])
    {
      assert r[k] in multiset(r);
      if r[k] != x {
        assert r[k] in multiset(t);
        var j :| 0 <= j < |t| && t[j] == r[k];
      }
    }
  }

  function InsertBy<T>(x: T, s: seq<T>, key: T -> real): (r: seq<T>)
    requires SortedBy(s, key)
    ensures SortedBy(r, key)
    ensures multiset(r) == multiset(s) + multiset{x}
  {
    if |s| == 0 then [x]
    else if key(x) <= key(s[0]) then [x] + s
    else
      var rest := InsertBy(x, s[1..], key);
      var r := [s[0]] + rest;
      assert forall k | 0 <= k < |rest| :: key(s[0]) <= key(rest[k]) by {
        BoundKeptByPermutation(rest, s[1..], x, key, key(s[0]));
      }
      assert SortedBy(r, key) by {
        forall i, j | 0 <= i < j < |r|
          ensures key(r[i]) <= key(r[j])
        {
          assert r[j] == rest[j - 1];
          if i > 0 {
            assert r[i] == rest[i - 1];
          }
        }
      }
      assert multiset(r) == multiset(s) + multiset{x} by {
        assert s == [s[0]] + s[1..];
      }
      r
  }

  /** A stable insertion sort: the result is sorted by `key` and is a
      permutation of the input. */
  function SortBy<T>(s: seq<T>, key: T -> real): (r: seq<T>)
    ensures SortedBy(r, key)
    ensures multiset(r) == multiset(s)
    ensures |r| == |s|
  {
    if |s| == 0 then []
    else
      assert s == [s[0]] + s[1..];
      InsertBy(s[0], SortBy(s[1..], key), key)
  }

  /** `np.median`: the middle element of the sorted values, or the mean of
      the two middle ones for an even count. */
  function Median(s: seq<real>): (m: real)
    requires |s| > 0
    ensures Min(s) <= m <= Max(s)
  {
    var r := SortBy(s, (x: real) => x);
    var n := |r|;
    assert forall i | 0 <= i < n :: r[i] in s by {
      forall i | 0 <= i < n
        ensures r[i] in s
      {
        assert r[i] in multiset(r);
      }
    }
    if n % 2 == 1 then r[n / 2] else (r[n / 2 - 1] + r[n / 2]) / 2.0
  }

  /** The indices below `n` that satisfy `keep`, in increasing order: the
      `[i for i in range(n) if keep(i)]` idiom and numpy's boolean masks. */
  function IndicesWhere(n: nat, keep: nat -> bool): (r: seq<nat>)
    ensures forall j | 0 <= j < |r| :: r[j] < n && keep(r[j])
    ensures forall i | 0 <= i < n && keep(i) :: i in r
    ensures forall j, k | 0 <= j < k < |r| :: r[j] < r[k]
  {
    if n == 0 then []
    else
      var r := IndicesWhere(n - 1, keep);
      if keep(n - 1) then r + [n - 1] else r
  }

  /** Ascending indices below `n` that include every index below `n` are
      exactly `0, 1, ..., n - 1`. */
  lemma AllIndices(r: seq<nat>, n: nat)
    requires forall j | 0 <= j < |r| :: r[j] < n
    requires forall i: nat | i < n :: i in r
    requires forall j, k | 0 <= j < k < |r| :: r[j] < r[k]
    ensures |r| == n
    ensures forall j | 0 <= j < |r| :: r[j] == j
  {
    forall j | 0 <= j < |r|
      ensures r[j] == j
    {
      IndexIsValue(r, n, j);
    }
    if n > 0 {
      assert n - 1 in r;
      var k :| 0 <= k < |r| && r[k] == n - 1;
      assert |r| - 1 == r[|r| - 1] < n;
    }
  }

  lemma {:induction false} IndexIsValue(r: seq<nat>, n: nat, j: nat)
    requires forall j | 0 <= j < |r| :: r[j] < n
    requires forall i: nat | i < n :: i in r
    requires forall j, k | 0 <= j < k < |r| :: r[j] < r[k]
    requires j < |r|
    ensures r[j] == j
  {
    if j > 0 {
      IndexIsValue(r, n, j - 1);
    }
    assert r[j] >= j;
    assert j < n;
    assert j in r;
    var k :| 0 <= k < |r| && r[k] == j;
    assert k >= j;
  }
}

=== FILE: text.dfy ===
/** The handful of Python `str` operations the program applies to curve
    names: `strip()`, `split(c)[0]`, `split(c)[-1]`, `replace(a, b)`,
    `lower()`, the `in` substring test and `str(k)` for a natural number. */
module Text {

  /** Python's `str.isspace()` on one code point. */
  predicate IsSpace(c: char)
  {
    || c == ' '
    || ('\t' <= c <= '\r')
    || ('\U{1C}' <= c <= '\U{1F}')
    || c == '\U{85}'
    || c == '\U{A0}'
    || c == '\U{1680}'
    || ('\U{2000}' <= c <= '\U{200A}')
    || c == '\U{2028}'
    || c == '\U{2029}'
    || c == '\U{202F}'
    || c == '\U{205F}'
    || c == '\U{3000}'
  }

  /** `s.lstrip()`: drops the leading white space and nothing else. */
  function TrimLeft(s: string): (r: string)
    ensures |r| <= |s| && r == s[|s| - |r|..]
    ensures forall c | c in s[..|s| - |r|] :: IsSpace(c)
    ensures |r| > 0 ==> !IsSpace(r[0])
    ensures forall c | c in r :: c in s
  {
    if |s| > 0 && IsSpace(s[0]) then
      assert forall c | c in s[1..] :: c in s;
      TrimLeft(s[1..])
    else s
  }

  /** `s.rstrip()`: drops the trailing white space and nothing else. */
  function TrimRight(s: string): (r: string)
    ensures |r| <= |s| && r == s[..|r|]
    ensures forall i | |r| <= i < |s| :: IsSpace(s[i])
    ensures |r| > 0 ==> !IsSpace(r[|r| - 1])
    ensures forall c | c in r :: c in s
  {
    if |s| > 0 && IsSpace(s[|s| - 1]) then
      assert forall c | c in s[..|s| - 1] :: c in s;
      TrimRight(s[..|s| - 1])
    else s
  }

  /** `s[..i]` and `s[j..]` are white space: cutting them off is a strip. */
  predicate TrimmedAt(s: string, i: nat, j: nat)
  {
    && i <= j <= |s|
    && (forall k | 0 <= k < i :: IsSpace(s[k]))
    && (forall k | j <= k < |s| :: IsSpace(s[k]))
  }

  /** `s.strip()`: the result starts and ends with a non-space character;
      `StripIsInfix` says where it is cut from. */
  function Strip(s: string): (r: string)
    ensures |r| > 0 ==> !IsSpace(r[0]) && !IsSpace(r[|r| - 1])
    ensures |r| <= |s|
    ensures forall c | c in r :: c in s
  {
    TrimRight(TrimLeft(s))
  }

  /** `strip()` returns the infix `s[i..j]` left after cutting off white
      space at both ends. */
  lemma StripIsInfix(s: string)
    ensures exists i: nat, j: nat :: TrimmedAt(s, i, j) && Strip(s) == s[i..j]
  {
    var l := TrimLeft(s);
    var r := TrimRight(l);
    SpacePrefix(s, |s| - |l|);
    StripCuts(s, l, r);
    assert TrimmedAt(s, |s| - |l|, |s| - |l| + |r|) && Strip(s) == s[|s| - |l|..|s| - |l| + |r|];
  }

  lemma StripCuts(s: string, l: string, r: string)
    requires |l| <= |s| && l == s[|s| - |l|..] && forall k | 0 <= k < |s| - |l| :: IsSpace(s[k])
    requires |r| <= |l| && r == l[..|r|] && forall k | |r| <= k < |l| :: IsSpace(l[k])
    ensures TrimmedAt(s, |s| - |l|, |s| - |l| + |r|) && r == s[|s| - |l|..|s| - |l| + |r|]
  {
    var i := |s| - |l|;
    var j := i + |r|;
    forall k | j <= k < |s|
      ensures IsSpace(s[k])
    {
      assert l[k - i] == s[k];
    }
  }

  /** Every character of a prefix made of white space is white space. */
  lemma SpacePrefix(s: string, n: nat)
    requires n <= |s| && forall c | c in s[..n] :: IsSpace(c)
    ensures forall k | 0 <= k < n :: IsSpace(s[k])
  {
    forall k | 0 <= k < n
      ensures IsSpace(s[k])
    {
      assert s[..n][k] == s[k];
    }
  }

  /** Only white space is stripped: a string holding a non-space character
      strips to a non-empty string. */
  lemma StripKeepsContent(s: string, k: nat)
    requires k < |s| && !IsSpace(s[k])
    ensures |Strip(s)| > 0
  {
    var r := Strip(s);
    StripIsInfix(s);
    var i: nat, j: nat :| TrimmedAt(s, i, j) && r == s[i..j];
    assert i <= k < j;
  }

  /** A string without white space at either end is its own `strip()`. */
  lemma StripUntrimmed(s: string)
    requires |s| > 0 ==> !IsSpace(s[0]) && !IsSpace(s[|s| - 1])
    ensures Strip(s) == s
  {
  }

  /** Python's `sub in s`. */
  predicate Contains(s: string, sub: string)
  {
    sub <= s || (|s| > 0 && Contains(s[1..], sub))
  }

  /** A string holding `sub` holds every character of `sub`. */
  lemma {:induction false} ContainsHead(s: string, sub: string)
    requires |sub| > 0 && Contains(s, sub)
    ensures sub[0] in s
    decreases |s|
  {
    if !(sub <= s) {
      ContainsHead(s[1..], sub);
    }
  }

  lemma ContainsPrefix(sub: string, rest: string)
    ensures Contains(sub + rest, sub)
  {
    assert (sub + rest)[..|sub|] == sub;
  }

  /** `s.split(c)[0]`: the text before the first `c` (all of `s` without one). */
  function BeforeFirst(s: string, c: char): (r: string)
    ensures r <= s && c !in r
    ensures |r| < |s| ==> s[|r|] == c
    ensures c !in s ==> r == s
  {
    if |s| == 0 || s[0] == c then [] else [s[0]] + BeforeFirst(s[1..], c)
  }

  /** `s.split(c)[-1]`: the text after the last `c` (all of `s` without one). */
  function AfterLast(s: string, c: char): (r: string)
    ensures |r| <= |s|
    ensures c !in r
    ensures c !in s ==> r == s
  {
    if |s| == 0 then s
    else if s[|s| - 1] == c then []
    else
      var p := s[..|s| - 1];
      assert s == p + [s[|s| - 1]];
      AfterLast(p, c) + [s[|s| - 1]]
  }

  /** Text after the last `c` of `a + b` is text after the last `c` of `b`
      whenever `b` holds a `c`. */
  lemma {:induction false} AfterLastAppend(a: string, b: string, c: char)
    requires c in b
    ensures AfterLast(a + b, c) == AfterLast(b, c)
    decreases |b|
  {
    var s := a + b;
    var last := b[|b| - 1];
    assert s[|s| - 1] == last;
    if last != c {
      var b' := b[..|b| - 1];
      assert s[..|s| - 1] == a + b';
      assert b == b' + [last];
      assert c in b';
      AfterLastAppend(a, b', c);
      calc {
        AfterLast(s, c);
        AfterLast(a + b', c) + [last];
        AfterLast(b', c) + [last];
        AfterLast(b, c);
      }
    }
  }

  /** `s.replace(c, '')`: every `c` removed, everything else kept in order. */
  function RemoveChar(s: string, c: char): (r: string)
    ensures forall x :: x in r <==> x in s && x != c
    ensures |r| <= |s|
    ensures c !in s ==> r == s
  {
    if |s| == 0 then []
    else
      var rest := RemoveChar(s[1..], c);
      assert s == [s[0]] + s[1..];
      if s[0] == c then rest else [s[0]] + rest
  }

  /** Removing a character distributes over concatenation. */
  lemma {:induction false} RemoveCharAppend(a: string, b: string, c: char)
    ensures RemoveChar(a + b, c) == RemoveChar(a, c) + RemoveChar(b, c)
  {
    if |a| > 0 {
      assert (a + b)[1..] == a[1..] + b;
      RemoveCharAppend(a[1..], b, c);
    } else {
      assert a + b == b;
    }
  }

  /** The text after the last `c` of `p + [c] + w` is `w` when `w` has no `c`. */
  lemma {:induction false} AfterLastDelimited(p: string, w: string, c: char)
    requires c !in w
    ensures AfterLast(p + [c] + w, c) == w
    decreases |w|
  {
    var s := p + [c] + w;
    if |w| == 0 {
      assert s[|s| - 1] == c;
    } else {
      var w', x := w[..|w| - 1], w[|w| - 1];
      assert w == w' + [x];
      assert x != c;
      assert s == (p + [c] + w') + [x];
      assert s[..|s| - 1] == p + [c] + w' && s[|s| - 1] == x;
      AfterLastDelimited(p, w', c);
      assert AfterLast(s, c) == AfterLast(p + [c] + w', c) + [x];
    }
  }

  /** `s.replace(a, b)` for single characters. */
  function ReplaceChar(s: string, a: char, b: char): (r: string)
    ensures |r| == |s|
    ensures forall i | 0 <= i < |s| :: r[i] == if s[i] == a then b else s[i]
    ensures a != b ==> a !in r
    ensures a !in s ==> r == s
  {
    seq(|s|, i requires 0 <= i < |s| => if s[i] == a then b else s[i])
  }

  function LowerChar(c: char): char
  {
    if 'A' <= c <= 'Z' then (c as int + 32) as char else c
  }

  /** `s.lower()` on ASCII letters; see README for why this suffices here. */
  function Lower(s: string): (r: string)
    ensures |r| == |s|
  {
    seq(|s|, i requires 0 <= i < |s| => LowerChar(s[i]))
  }

  function Pow10(m: nat): (r: nat)
    ensures r >= 1
  {
    if m == 0 then 1 else 10 * Pow10(m - 1)
  }

  /** The decimal digit character of `d`. */
  function DigitChar(d: nat): (c: char)
    requires d < 10
    ensures '0' <= c <= '9'
  {
    ('0' as int + d) as char
  }

  /** The value of one decimal digit character. */
  function DigitValue(c: char): (d: nat)
    requires '0' <= c <= '9'
    ensures d < 10 && DigitChar(d) == c
  {
    (c as int - '0' as int) as nat
  }

  /** The number a string of decimal digits spells, most significant first. */
  function DigitsValue(s: string): nat
    requires forall i | 0 <= i < |s| :: '0' <= s[i] <= '9'
  {
    if |s| == 0 then 0
    else 10 * DigitsValue(s[..|s| - 1]) + DigitValue(s[|s| - 1])
  }

  /** `str(n)` for a natural number: its decimal digits, most significant first. */
  function NatToString(n: nat): (r: string)
    ensures |r| >= 1
    ensures forall i | 0 <= i < |r| :: '0' <= r[i] <= '9'
    ensures forall c | c in r :: '0' <= c <= '9'
  {
    if n < 10 then [DigitChar(n)]
    else NatToString(n / 10) + [DigitChar(n % 10)]
  }

  /** The digits `str(n)` prints spell `n` back. */
  lemma {:induction false} NatToStringValue(n: nat)
    ensures DigitsValue(NatToString(n)) == n
  {
    var r := NatToString(n);
    var last := DigitChar(n % 10);
    var front := if n < 10 then [] else NatToString(n / 10);
    assert r == front + [last];
    assert DigitsValue(r) == 10 * DigitsValue(front) + n % 10 by {
      DigitsValueSnoc(front, last);
    }
    if n >= 10 {
      NatToStringValue(n / 10);
    }
  }

  /** Appending a digit multiplies the value by ten and adds the digit. */
  lemma DigitsValueSnoc(s: string, d: char)
    requires '0' <= d <= '9' && forall i | 0 <= i < |s| :: '0' <= s[i] <= '9'
    ensures DigitsValue(s + [d]) == 10 * DigitsValue(s) + DigitValue(d)
  {
    assert (s + [d])[..|s|] == s;
  }

  /** A number at least `10^m` prints with more than `m` digits. */
  lemma {:induction false} NatToStringLength(n: nat, m: nat)
    requires n >= Pow10(m)
    ensures |NatToString(n)| > m
  {
    if m > 0 {
      assert n >= 10 * Pow10(m - 1);
      assert n / 10 >= Pow10(m - 1);
      NatToStringLength(n / 10, m - 1);
    }
  }
}

=== FILE: wrappers.dfy ===
/** Optional values and failure-carrying results, standing in for Python's
    `None` returns and for the exceptions the program catches and reports. */
module Wrappers {

  /** A value that may be absent (Python's `None`). */
  datatype Option<+T> = None | Some(value: T) {

    /** The wrapped value, or `default` when absent. */
    function GetOr(default: T): T
    {
      match this
      case Some(v) => v
      case None => default
    }
  }

  /** Either a computed value or the error the program reports instead. */
  datatype Result<+R, +E> = Success(value: R) | Failure(error: E)
}
